=== FILE: README.md ===
# learnkart core in Dafny

This project is a Dafny model of the decision logic inside learnkart, an online-course
marketplace built on Next.js and Prisma. Every piece is a pure function over immutable
data, and the clock is an explicit `now`. The pieces are:

- **The request throttle** (`RateLimit`). It is a fixed-window counter keyed by
  `ip:url`, with the production cleanup that runs before each check, and it answers a
  rejection with 429 and its headers.
- **The zod schemas** (`Validations`). The password, email and name rules are modelled,
  and so are the register, login, forgot-password and reset-password object schemas.
  Each schema reports its issues in declaration order.
- **The three authentication routes** (`RegisterRoute`, `ForgotPasswordRoute`,
  `ResetPasswordRoute`). Each is one transition of the limiter store and of a database
  with two tables (`Accounts`): users, and password-reset tokens.
- **The course player** (`CoursePlayer`). This covers the video/test selection, the
  completion sets, the quiz's answer/next/previous state machine and its score.
- **Course search** (`CourseSearch`). This covers the live filter, the `/courses?…`
  target built by the courses page, the search bar and the hero search, and a reader
  that recovers the parameters from a target.
- **The progress pages** (`Progress`). The dashboard and "My Learning" are modelled as
  counters over enrolment and test-result rows.

Opaque primitives enter as function parameters:

- `isEmail` is zod's email format;
- `hash` is bcrypt, including its salt;
- `enc` and `encUri` are the two percent-encoders.

Fresh ids and reset tokens are inputs as well. A collision is the database error that
the routes' catch-all turns into a 500. Supporting modules are `Wrappers` (`Option`,
`Result`), `Sequences` (order-preserving subsequences), `Text` (JavaScript `trim`, ASCII `toLowerCase`, `includes`, `split`, UTF-16
length, number formatting) and `Http` (JSON bodies, responses, headers).

## Model

| member | source | states |
|---|---|---|
| RateLimit.CeilSeconds | src/lib/rate-limit.ts:76 | The result is the least whole number of seconds covering the millisecond delay: `(r-1)*1000 < ms <= r*1000`. |
| RateLimit.ClientIp | src/lib/rate-limit.ts:53-54 | An absent or empty `x-forwarded-for` gives `"unknown"`. Otherwise the address is the untrimmed prefix of the header up to its first comma. |
| RateLimit.ClientKeyDetermined | src/lib/rate-limit.ts:56 | For an address without a colon, the key `ip:url` splits back into exactly that address and URL, so distinct clients or URLs never share a window. |
| RateLimit.Check | src/lib/rate-limit.ts:59-96 | A missing entry, or one with `now > resetTime`, is replaced by `(1, now+interval)` and the request is admitted. The request is rejected iff it is inside the window (`now == resetTime` still counts) and `count >= maxRequests`. A rejection leaves the store unchanged and carries `ceil((resetTime-now)/1000) >= 0`. An admission changes only the key's own entry and increments an in-window count. |
| RateLimit.CheckIsolatesKeys | src/lib/rate-limit.ts:59-96 | A check never adds, removes or changes another key's entry. |
| RateLimit.CheckKeepsCountsWithin | src/lib/rate-limit.ts:59-96 | One store serves every route, each with its own limit. If every key's count lies between 1 and `max(1, quota)` of the route owning that key, a check against the key's own quota keeps that true for every key. |
| RateLimit.CleanupKeepsCountsWithin | src/lib/rate-limit.ts:29-36 | Cleanup keeps every remaining key within its own route's quota. |
| RateLimit.CheckKeepsCountsBounded | src/lib/rate-limit.ts:59-96 | The special case of a store governed by one limit: every stored count stays between 1 and `max(1, maxRequests)`. |
| RateLimit.CheckKeepsWindowsWithin | src/lib/rate-limit.ts:59-73 | With a clock that does not go back, every window ends at most one interval after the present. |
| RateLimit.RetryAfterBounded | src/lib/rate-limit.ts:75-76 | Under that invariant a rejection's delay lies in `0..ceil(interval/1000)`. |
| RateLimit.ReplayInWindow | src/lib/rate-limit.ts:67-96 | Inside one window, successive call `i` for a key that has seen `count` calls is admitted iff `count + i < maxRequests`. |
| RateLimit.FixedWindowQuota | src/lib/rate-limit.ts:59-96 | From a fresh or expired entry, inside the window the first call opens, call `i` is admitted iff `i < max(1, maxRequests)`. So calls 1..maxRequests pass and the next one is rejected. |
| RateLimit.Cleanup | src/lib/rate-limit.ts:29-36 | Exactly the entries with `resetTime < now` are removed, and all others are kept unchanged (the development sweep at lines 18-25 does the same). |
| RateLimit.CleanupBeforeCheck | src/lib/rate-limit.ts:47-50 | Cleaning up first changes neither the decision nor the key's resulting entry. With a non-negative interval, cleanup and check commute. |
| RateLimit.EarlierCleanupBeforeCheck | src/lib/rate-limit.ts:29-36 | A cleanup at any earlier instant (the sweep timer, or `cleanupStore`'s own clock read at line 30) changes neither a later check's decision nor the entry it leaves for the key. |
| RateLimit.Limit | src/lib/rate-limit.ts:43-50 | The production path decides exactly as the plain check does. Outside production the call is exactly the plain check. On rejection the store is the cleaned store in production and the old store otherwise. On admission the key's entry is the one the plain check leaves, so the pre-check cleanup never changes what is counted. |
| RateLimit.Gate | src/lib/rate-limit.ts:43-96 | The limiter call at the top of each route rejects iff the client key `ip:url` has an entry whose window is still open and whose count has reached the quota. On rejection the store is the cleaned one in production and the old one otherwise. On admission the key's entry opens a new window `(1, now+interval)` when it was missing or expired, and otherwise counts the request: `(count+1, resetTime)`. |
| RateLimit.TooManyRequests | src/lib/rate-limit.ts:78-92 | The rejection is status 429 with the fixed message and `retryAfter` in the body. |
| RateLimit.TooManyRequestsHeaders | src/lib/rate-limit.ts:85-90 | `Retry-After`, `X-RateLimit-Limit` and `X-RateLimit-Reset` parse back to the delay, the quota and the window end, and `X-RateLimit-Remaining` is `"0"`. |
| Text.Trim | src/lib/validations.ts:21 | `trim` removes exactly the surrounding JavaScript whitespace: the result is empty iff the input is all whitespace, and otherwise starts and ends with non-whitespace. |
| Text.TrimIgnoresPadding | src/components/hero-search.tsx:13-14 | Surrounding whitespace does not change the trimmed term. |
| Text.Split | src/lib/rate-limit.ts:54 | `split` always yields at least one piece, and the first piece (`split(',')[0]`) is the text before the first separator, or the whole string when there is none. |
| Text.SplitJoin | src/lib/rate-limit.ts:54 | Splitting a join of separator-free pieces gives back the pieces. |
| Validations.PasswordIssues | src/lib/validations.ts:4-8 | A password is accepted iff its UTF-16 length is at least 8, it has an ASCII letter and it has a digit. The first issue is the length message, then the letter message, then the digit message. |
| Validations.EmailIssues | src/lib/validations.ts:11-14 | An email is accepted iff it passes the format check and is non-empty. The format issue comes first. |
| Validations.NameIssues | src/lib/validations.ts:17-21 | A name is accepted iff its length before trimming is in 2..100 inclusive. "Too short" is reported before "too long". |
| Validations.ShapeIssues | src/lib/validations.ts:24-45 | An object has no issues iff every declared field has none. |
| Validations.FirstIssueFromFirstInvalidField | src/lib/validations.ts:24-28 | The first issue of an object is the first issue of its first invalid field in declaration order. |
| Validations.ParseShape | src/lib/validations.ts:24-45 | `parse` succeeds iff the body is an object whose every field is a string passing its rule. It then yields the values in field order, with only the name trimmed. Otherwise it yields the first issue. |
| Validations.ParseRegister | src/lib/validations.ts:24-28 | The register body parses iff name, email and password all pass. The name comes back trimmed and the email and password unchanged. |
| Validations.ParseLogin | src/lib/validations.ts:31-34 | The login password only has to be a non-empty string. |
| Validations.ParseForgot | src/lib/validations.ts:37-39 | The forgot-password body parses iff its email passes, and yields that email unchanged. |
| Validations.ParseReset | src/lib/validations.ts:42-45 | The reset body parses iff the token is a non-empty string and the password passes the registration rule. |
| Validations.RegisterIssueOrder | src/lib/validations.ts:24-28 | Registration reports the name's first issue, else the email's, else the password's. |
| Validations.EmptyEmailFirstIssue | src/lib/validations.ts:11-14 | An empty email yields "Invalid email format" first and "Email is required" second. |
| Validations.NameBoundsBeforeTrim | src/lib/validations.ts:17-21 | Three spaces pass the 2..100 bounds and become the empty name. |
| Accounts.FindByEmail | src/app/api/auth/register/route.ts:28-30 | The lookup finds the first row with that exact email, and finds nothing iff no row has it. |
| Accounts.FindById | src/app/api/auth/reset-password/route.ts:60-63 | The lookup finds a row with that id iff one exists. |
| Accounts.InvalidateUnused | src/app/api/auth/forgot-password/route.ts:45-54 | Every unused token of the user becomes used, and no other field or token changes. Afterwards the user has no unused token. |
| RegisterRoute.Post | src/app/api/auth/register/route.ts:14-75 | The checks run in order: rate limit (429, tables unchanged), schema (400 with the first issue), lowercased email taken (400 "User already exists"). Success appends exactly one user (trimmed name, lowercased email, hashed password) and answers 201 with id, name and email only. No other outcome changes a table. |
| RegisterRoute.PostKeepsUsersWellFormed | src/app/api/auth/register/route.ts:28-49 | Registration keeps ids unique and stored emails lowercased and unique. |
| ForgotPasswordRoute.Post | src/app/api/auth/forgot-password/route.ts:15-105 | The checks run in order: rate limit (429), schema (400 with the first issue), unknown lowercased email (generic 200, nothing changed). A body that is not JSON answers 500 and writes nothing (line 23 throws into the catch-all at lines 91-102). A known email invalidates the user's unused tokens and then issues `(user, now+3600000, unused)`. The answer carries the link and token in development and is generic otherwise. Users never change. |
| ForgotPasswordRoute.ResetUrl | src/app/api/auth/forgot-password/route.ts:66 | The link is `NEXTAUTH_URL` followed by `/reset-password?token=` and the token when that setting is present and non-empty. Otherwise the base is `http://localhost:3000`. The token is the link's suffix. |
| ForgotPasswordRoute.IssueLeavesOneLiveToken | src/app/api/auth/forgot-password/route.ts:41-63 | After issuing, the user's previously unused tokens are used and other users' tokens are untouched. The new token is the user's only unused one and expires an hour from now. |
| ForgotPasswordRoute.PostKeepsAtMostOneUnused | src/app/api/auth/forgot-password/route.ts:45-63 | Every outcome keeps each user at no more than one unused token. |
| ForgotPasswordRoute.ResponseHidesAccounts | src/app/api/auth/forgot-password/route.ts:33-90 | Outside development, a registered email gets the same answer as an unknown one. |
| ForgotPasswordRoute.MailFailureIgnored | src/app/api/auth/forgot-password/route.ts:65-73 | Whether the email went out changes neither the answer nor the tables. |
| ResetPasswordRoute.TokenProblem | src/app/api/auth/reset-password/route.ts:33-53 | A missing token is invalid. Otherwise a used token is reported as used, then `now > expiresAt` as expired; only an unused, unexpired token passes. |
| ResetPasswordRoute.Post | src/app/api/auth/reset-password/route.ts:14-88 | The checks run in order: rate limit (429), schema (400 with the first issue before any lookup), token checks (400 with the check's message, nothing changed). A body that is not JSON answers 500 and writes nothing (line 22 throws into the catch-all at lines 74-85). Success sets the owner's password to the hash and marks the token used together, answering 200. A missing owner rolls back and answers 500. |
| ResetPasswordRoute.UsedBeforeExpired | src/app/api/auth/reset-password/route.ts:41-53 | A token that is both used and expired is reported as used. |
| ResetPasswordRoute.ExpiryIsStrict | src/app/api/auth/reset-password/route.ts:48 | A reset at exactly `expiresAt` is accepted, and one millisecond later it is expired. |
| ResetPasswordRoute.SuccessChangesOnlyOwnerAndToken | src/app/api/auth/reset-password/route.ts:55-73 | A request that passes the gate, the schema and the token checks, and whose owner exists, answers 200. It changes only that owner's password and that token's `used` flag. |
| ResetPasswordRoute.OkOnlyOnSuccess | src/app/api/auth/reset-password/route.ts:14-88 | The answer is 200 iff the request passes the gate, the schema and the token checks, and the token's owner exists. |
| ResetPasswordRoute.PostKeepsAtMostOneUnused | src/app/api/auth/reset-password/route.ts:58-68 | Resets keep each user at no more than one unused token. |
| ResetPasswordRoute.TokenSingleUse | src/app/api/auth/reset-password/route.ts:41-68 | After a successful reset, a later request with the same token gets 400 "This reset link has already been used" and changes nothing. |
| CoursePlayer.Start | src/components/course-player.tsx:39-42 | The player opens on the first video (none without videos), with no test and empty completion sets. |
| CoursePlayer.PlayVideo | src/components/course-player.tsx:52-55 | Playing a video closes the test, so the screen is exclusive, and the completion sets are kept. |
| CoursePlayer.OpenTest | src/components/course-player.tsx:57-60 | Opening a test stops the video, so the screen is exclusive, and the completion sets are kept. |
| CoursePlayer.MarkingIsIdempotentInsertion | src/components/course-player.tsx:44-50 | Marking a video or test complete inserts its id, is idempotent, and never removes an id. |
| CoursePlayer.Answer | src/components/course-player.tsx:197-201 | Answering sets only the current question's answer; the other answers, the index and the results flag are unchanged. |
| CoursePlayer.Next | src/components/course-player.tsx:203-210 | Next advances unless on the last question. There it shows the results and fires `onComplete`, which happens iff `current >= n-1`. |
| CoursePlayer.Previous | src/components/course-player.tsx:212-216 | Previous steps back exactly one question unless on the first. |
| CoursePlayer.QuizStep | src/components/course-player.tsx:197-327 | Clicks keep the quiz invariant: the index is in `0..n-1`, only existing questions are answered, and every earlier question is answered. Results mode ignores clicks, and results show only once all questions are answered. `onComplete` fires exactly when results appear. Choosing an option records it for the current question. Next advances only when the current question is answered, since the button is disabled otherwise (line 323). Previous steps back, and does nothing on the first question (line 316). |
| CoursePlayer.RunQuizKeepsInv | src/components/course-player.tsx:183-216 | Every run from a fresh quiz keeps the invariant, and `onComplete` has fired once iff results are showing, otherwise never. |
| CoursePlayer.Score | src/components/course-player.tsx:219-221 | `0 <= score <= n`. |
| CoursePlayer.ScoreCountsCorrect | src/components/course-player.tsx:219-221 | The score is the number of indices whose answer equals the question's correct answer. |
| CoursePlayer.QuizCounters | src/components/course-player.tsx:219-284 | The answered counter is at most `n`, and equals `n` on the results screen. The score is at most the answered count. |
| CoursePlayer.Begin | src/components/course-player.tsx:38-42 | The initial session satisfies the session invariant. |
| CoursePlayer.SwitchTestAsWritten | src/components/course-player.tsx:101-109 | Opening a test while another is showing keeps the previous quiz state; opening one from a video starts fresh. |
| CoursePlayer.SwitchTestAsWrittenBreaksQuiz | src/components/course-player.tsx:182-187 | Switching from question 2 of a two-question test to a one-question test leaves the quiz on a question that does not exist, and carries an answer over. |
| CoursePlayer.SwitchTest | src/components/course-player.tsx:101-109 | Keyed by test, a different test starts a fresh quiz, and the session invariant is kept. |
| CoursePlayer.Step | src/components/course-player.tsx:44-109 | Every click keeps the session invariant and only grows the completion sets. A test is marked complete only when its own quiz shows results. |
| CoursePlayer.RunKeepsSessionInv | src/components/course-player.tsx:38-216 | Any sequence of clicks keeps the screen exclusive and the open test's quiz consistent, and completed videos are never lost. |
| CourseSearch.Filter | src/components/courses-client.tsx:46-56 | A course is shown iff (the term is empty, or the lowercased title or description contains the lowercased term) and (the category is empty or equals the course's slug). Every kept course appears as often as in the catalogue and every dropped one never, so the count on the page is the number of matching rows. |
| CourseSearch.FilterIsSubseq | src/components/courses-client.tsx:47 | The shown courses are an order-preserving subsequence of the catalogue. |
| CourseSearch.EmptyFilterKeepsAll | src/components/courses-client.tsx:48-52 | An empty term and category show every course in order. |
| CourseSearch.CategoryNarrows | src/components/courses-client.tsx:52 | Selecting a category gives an order-preserving subsequence of the uncategorised result for the same term. |
| CourseSearch.ResultLabel | src/components/courses-client.tsx:118 | The label is "course" iff exactly one course matches. |
| CourseSearch.QueryParams | src/components/courses-client.tsx:63-66 | `search` is present iff the trimmed term is non-empty, and holds the trimmed term. `category` is present iff non-empty. `search` comes first. |
| CourseSearch.CoursesTarget | src/components/courses-client.tsx:63-70 | The target starts with `/courses` and is exactly `/courses` iff both parameters are absent. |
| CourseSearch.TargetRoundTrip | src/components/course-search.tsx:28-35 | Reading the target back gives exactly the encoded parameters in order, for an encoder that escapes `&` and `=`. |
| CourseSearch.HeroTarget | src/components/hero-search.tsx:11-18 | The target is exactly `/courses` iff the term is all whitespace. Otherwise it is `/courses?search=` followed by the encoded trimmed term. |
| CourseSearch.HeroTargetParams | src/components/hero-search.tsx:13-17 | The hero target carries at most one parameter, `search`. |
| CourseSearch.TargetsIgnorePadding | src/components/hero-search.tsx:13-14 | Terms differing only in surrounding whitespace lead to the same hero and search-bar targets. |
| CourseSearch.WhitespaceTermFiltersButIsNotNavigated | src/components/courses-client.tsx:48-65 | A single space is dropped from the target but still filters: a course without a space in its text is hidden. |
| CourseSearch.ChangeCategory | src/components/course-search.tsx:51-53 | Changing the category keeps the typed term. |
| CourseSearch.ChangeCategoryKeepsSearch | src/components/course-search.tsx:28-53 | After a category change the target keeps its `search` parameter and ends with the new category, or has none. |
| Progress.BandOf | src/app/dashboard/page.tsx:108-115 | At least 80 is green, 60..79 is yellow, and below 60 is red. |
| Progress.BandMonotone | src/app/dashboard/page.tsx:110-114 | A higher percentage never gets a worse colour. |
| Progress.Select | src/app/my-courses/page.tsx:15-29 | A `where` selection keeps exactly the matching rows, as many as match, as an order-preserving subsequence of the rows in their query order. So the dashboard's newest-first order survives the selection. |
| Progress.Dashboard | src/app/dashboard/page.tsx:7-46 | The page renders iff there is a session and its user exists. The recent results are the user's newest five at most. The average cell is a plain 0 iff the user has no results. |
| Progress.DashboardTarget | src/app/dashboard/page.tsx:10-46 | The page redirects to `/login` iff the session or its user is missing. |
| Progress.DashboardCounters | src/app/dashboard/page.tsx:63-79 | "Enrolled" counts the user's enrolments, and "Completed" those at 100, which is at most "Enrolled". "Tests Taken" is `min(5, results)`. |
| Progress.CardOf | src/app/my-courses/page.tsx:95-101 | A card shows its progress bar iff its progress is above 0. |
| Progress.MyCourses | src/app/my-courses/page.tsx:8-77 | The page renders iff there is a session. It shows one card per enrolment, the counters, and the empty state iff there are no enrolments. |
| Progress.SplitByProgress | src/app/my-courses/page.tsx:57-69 | "In Progress" (<100) and "Completed" (==100) are disjoint. Their sum is at most the enrolments, with equality iff no progress exceeds 100. |
| Progress.MyCoursesCounters | src/app/my-courses/page.tsx:46-69 | The same relations hold of the page's three counters. |
| Progress.MyCoursesTarget | src/app/my-courses/page.tsx:11-13 | The page redirects to `/login` iff there is no session. |

## Findings

| source | as written | input that shows it | evidently intended | confidence | as-written member | corrected member |
|---|---|---|---|---|---|---|
| src/components/course-player.tsx:101-109 | The quiz component has no `key`, so opening a test while another test is showing keeps the previous test's question index and answers | On question 2 of a two-question test, with question 1 answered, open a one-question test: the index points past its only question, so rendering reads an undefined question at line 295. From question 1 or from a results screen, the old answers carry over into the new test instead | Each test starts a fresh quiz, as if keyed by the test | medium, not executed | CoursePlayer.SwitchTestAsWrittenBreaksQuiz | CoursePlayer.SwitchTest |

The rest of the model (`CoursePlayer.Step` and the run lemmas) uses the corrected
`SwitchTest`.

## Left out

- **The database and transport.** Prisma queries are lookups in a row sequence and a token map. The reset `$transaction` is one atomic step. The body, the status and the headers are a datatype, and `req.json()` failing is the `Malformed` body (answered 500).
- **The unmodelled catch-all paths.** Database errors other than a duplicate id or token are not modelled; the catch-all turns those into 500 too.
- **Opaque primitives.** bcrypt, `crypto.randomBytes`, zod's email regular expression and percent-encoding are all opaque. Fresh ids and tokens are inputs, and the encoders are parameters.
- **Case mapping.** `toLowerCase` maps ASCII letters only; Unicode case mapping is not modelled.
- **Concurrency.** The limiter store is one shared map per process that all routes use; the model threads one store through each call. `checkRateLimit` runs without an `await` between its read and write, so it is one step, but interleavings of whole requests are not modelled. ForgotPasswordRoute.PostKeepsAtMostOneUnused holds only when requests run one at a time: the `updateMany` and the `create` (forgot-password/route.ts:46 and 57) are separate awaits outside a transaction, so two interleaved requests for one user can leave two unused tokens.
- **Timers and the clock.** The five-minute sweep timer is not modelled; `Cleanup` is the operation it runs. The search bar's 300 ms debounce and its sync from the URL are not modelled either. Each request reads one `now`. The source reads the clock separately in `cleanupStore` (rate-limit.ts:30), in the limiter (rate-limit.ts:57), for the new token's `expiresAt` (forgot-password/route.ts:43) and in the reset token's expiry check (reset-password/route.ts:48). These reads are milliseconds apart, and a cleanup run slightly earlier cannot change the limiter's decision (`RateLimit.EarlierCleanupBeforeCheck`).
- **zod version.** The messages for a missing field ("Required") and a wrong type ("Expected string, received …") are zod 3's defaults; zod 4 words them differently ("Invalid input: expected string, received …"). The package version is not part of this model, and zod 3 is assumed.
- **Email and logging.** Sending is the ignored `mailDelivered` flag.
- **Floating point.** The dashboard's `Math.round` percentages and average are not computed: the band is stated over an integer percentage, and the average cell only records which results it averages. A zero `totalQuestions` (division by zero) is not modelled.
- **Number formatting.** Numbers are printed as whole numbers; JavaScript's exponent notation for magnitudes of 10^21 and above is not modelled.
- **Query ordering.** The `orderBy` clauses are taken as given: rows arrive already ordered.
- **Rendering.** Question options parsed from JSON, video iframes, icons, dates and class names are not modelled.
- **Empty tests.** A test with no questions crashes when rendered, so opening one requires at least one question (`CoursePlayer.Openable`).
- **Re-opening the same test.** Clicking the test that is already open keeps its quiz in both the as-written and the corrected model.
- CoursePlayer.Score: the results page's `Math.round(score / n * 100)` percentage is not modelled (floating point); only the count is.
- Progress.Dashboard: the average's value is not stated, because it is a floating-point mean.

=== FILE: accounts.dfy ===
/**
 * The two database tables the authentication routes touch: users (rows in
 * insertion order) and password-reset tokens (keyed by their unique token string).
 */
module Accounts {
  import opened Wrappers
  import opened Text

  /** A `User` row; `password` holds the bcrypt hash. */
  datatype User = User(id: string, name: string, email: string, password: string)

  /** A `PasswordReset` row, stored under its token. */
  datatype ResetToken = ResetToken(userId: string, expiresAt: int, used: bool)

  datatype Db = Db(users: seq<User>, resets: map<string, ResetToken>)

  /** Reset links stay valid for one hour. */
  const ResetTokenLifetime := 3600000

  /** The unique indexes on `User.id` and `User.email`, and the registration rule that emails are stored lowercased. */
  ghost predicate UsersWellFormed(users: seq<User>) {
    && (forall i, j :: 0 <= i < j < |users| ==> users[i].id != users[j].id && users[i].email != users[j].email)
    && (forall i :: 0 <= i < |users| ==> Lower(users[i].email) == users[i].email)
  }

  /** `prisma.user.findUnique({ where: { email } })`. */
  function FindByEmail(users: seq<User>, email: string): (r: Option<nat>)
    ensures r.Some? ==> r.value < |users| && users[r.value].email == email
    ensures r.Some? ==> forall j :: 0 <= j < r.value ==> users[j].email != email
    ensures r.None? <==> forall j :: 0 <= j < |users| ==> users[j].email != email
  {
    if |users| == 0 then None
    else if users[0].email == email then Some(0)
    else match FindByEmail(users[1..], email)
      case None => assert forall j :: 1 <= j < |users| ==> users[j] == users[1..][j - 1]; None
      case Some(k) => assert forall j :: 1 <= j <= k + 1 ==> users[j] == users[1..][j - 1]; Some(k + 1)
  }

  /** `prisma.user.update({ where: { id } })` finds its row this way. */
  function FindById(users: seq<User>, id: string): (r: Option<nat>)
    ensures r.Some? ==> r.value < |users| && users[r.value].id == id
    ensures r.None? <==> forall j :: 0 <= j < |users| ==> users[j].id != id
  {
    if |users| == 0 then None
    else if users[0].id == id then Some(0)
    else match FindById(users[1..], id)
      case None => assert forall j :: 1 <= j < |users| ==> users[j] == users[1..][j - 1]; None
      case Some(k) => Some(k + 1)
  }

  /** The tokens of a user that have not been used. */
  function UnusedTokens(resets: map<string, ResetToken>, userId: string): set<string> {
    set t | t in resets && resets[t].userId == userId && !resets[t].used
  }

  /** The invariant the forgot-password flow is built around: no user holds two live tokens. */
  ghost predicate AtMostOneUnused(resets: map<string, ResetToken>) {
    forall t1, t2 ::
      (t1 in resets && t2 in resets && !resets[t1].used && !resets[t2].used
       && resets[t1].userId == resets[t2].userId) ==> t1 == t2
  }

  /** `prisma.passwordReset.updateMany({ where: { userId, used: false }, data: { used: true } })`. */
  function InvalidateUnused(resets: map<string, ResetToken>, userId: string): (r: map<string, ResetToken>)
    ensures r.Keys == resets.Keys
    ensures forall t :: t in resets ==>
      && r[t].userId == resets[t].userId && r[t].expiresAt == resets[t].expiresAt
      && (r[t].used <==> resets[t].used || resets[t].userId == userId)
    ensures UnusedTokens(r, userId) == {}
  {
    map t | t in resets :: if resets[t].userId == userId && !resets[t].used then resets[t].(used := true) else resets[t]
  }
}

=== FILE: course_player.dfy ===
/**
 * The course player: which video or test is on screen, which ones the learner has
 * completed, and the quiz (`TestComponent`) the open test runs. Every click is a
 * pure transition; JSON option parsing and rendering are not modelled.
 */
module CoursePlayer {
  import opened Wrappers

  datatype Video = Video(id: string, url: string)
  datatype Question = Question(id: string, correctAnswer: int)
  datatype Test = Test(id: string, questions: seq<Question>)
  datatype Course = Course(videos: seq<Video>, tests: seq<Test>)

  // ---------------------------------------------------------------------------
  // Selection and completion

  datatype Player = Player(video: Option<Video>, test: Option<Test>,
                           completedVideos: set<string>, completedTests: set<string>)

  /** What the learner sees on screen is never a video and a test at once. */
  predicate Exclusive(p: Player) {
    !(p.video.Some? && p.test.Some?)
  }

  /** The player opens on the first video, or on nothing when the course has none. */
  function Start(course: Course): (r: Player)
    ensures r.test.None? && r.completedVideos == {} && r.completedTests == {}
    ensures r.video.Some? <==> |course.videos| > 0
    ensures r.video.Some? ==> r.video.value == course.videos[0]
    ensures Exclusive(r)
  {
    Player(if |course.videos| > 0 then Some(course.videos[0]) else None, None, {}, {})
  }

  /** Choosing a video closes any open test and keeps the completion sets. */
  function PlayVideo(p: Player, v: Video): (r: Player)
    ensures r.video == Some(v) && r.test.None? && Exclusive(r)
    ensures r.completedVideos == p.completedVideos && r.completedTests == p.completedTests
  {
    p.(video := Some(v), test := None)
  }

  /** Choosing a test closes any playing video and keeps the completion sets. */
  function OpenTest(p: Player, t: Test): (r: Player)
    ensures r.test == Some(t) && r.video.None? && Exclusive(r)
    ensures r.completedVideos == p.completedVideos && r.completedTests == p.completedTests
  {
    p.(video := None, test := Some(t))
  }

  /** A video is marked complete by inserting its id; nothing else changes. */
  function MarkVideoComplete(p: Player, videoId: string): (r: Player)
    ensures r.completedVideos == p.completedVideos + {videoId}
    ensures r.video == p.video && r.test == p.test && r.completedTests == p.completedTests
  {
    p.(completedVideos := p.completedVideos + {videoId})
  }

  /** A test is marked complete by inserting its id; nothing else changes. */
  function MarkTestComplete(p: Player, testId: string): (r: Player)
    ensures r.completedTests == p.completedTests + {testId}
    ensures r.video == p.video && r.test == p.test && r.completedVideos == p.completedVideos
  {
    p.(completedTests := p.completedTests + {testId})
  }

  /** Marking complete twice is marking complete once, and no id is ever removed. */
  lemma MarkingIsIdempotentInsertion(p: Player, id: string)
    ensures MarkVideoComplete(MarkVideoComplete(p, id), id) == MarkVideoComplete(p, id)
    ensures MarkTestComplete(MarkTestComplete(p, id), id) == MarkTestComplete(p, id)
    ensures p.completedVideos <= MarkVideoComplete(p, id).completedVideos
    ensures p.completedTests <= MarkTestComplete(p, id).completedTests
    ensures id in MarkVideoComplete(p, id).completedVideos && id in MarkTestComplete(p, id).completedTests
  {
    assert p.completedVideos + {id} + {id} == p.completedVideos + {id};
    assert p.completedTests + {id} + {id} == p.completedTests + {id};
  }

  // ---------------------------------------------------------------------------
  // The quiz of one test with `n` questions

  /** `answers` is the sparse answer array: an index is present once that question is answered. */
  datatype Quiz = Quiz(current: nat, answers: map<nat, int>, showResults: bool)

  const QuizStart := Quiz(0, map[], false)

  /**
   * The quiz invariant: the current question exists, only existing questions are answered,
   * every question before the current one is answered, and results show only once all are.
   */
  ghost predicate QuizInv(q: Quiz, n: nat) {
    && q.current < n
    && (forall i :: i in q.answers ==> i < n)
    && (forall i: nat :: i < q.current ==> i in q.answers)
    && (q.showResults ==> forall i: nat :: i < n ==> i in q.answers)
  }

  /** `handleAnswer`: records the choice for the current question and touches no other answer. */
  function Answer(q: Quiz, choice: int): (r: Quiz)
    ensures r.current == q.current && r.showResults == q.showResults
    ensures r.answers.Keys == q.answers.Keys + {q.current} && r.answers[q.current] == choice
    ensures forall i :: i in q.answers && i != q.current ==> r.answers[i] == q.answers[i]
  {
    q.(answers := q.answers[q.current := choice])
  }

  /** `handleNext`: advances, or on the last question shows the results; the flag says whether `onComplete` fired. */
  function Next(q: Quiz, n: nat): (r: (Quiz, bool))
    requires n >= 1
    ensures r.1 <==> q.current >= n - 1
    ensures r.0.answers == q.answers
    ensures !r.1 ==> r.0.current == q.current + 1 && r.0.showResults == q.showResults
    ensures r.1 ==> r.0.current == q.current && r.0.showResults
  {
    if q.current < n - 1 then (q.(current := q.current + 1), false)
    else (q.(showResults := true), true)
  }

  /** `handlePrevious`: steps back one question, except from the first. */
  function Previous(q: Quiz): (r: Quiz)
    ensures r.answers == q.answers && r.showResults == q.showResults
    ensures r.current <= q.current <= r.current + 1
    ensures r.current == q.current <==> q.current == 0
  {
    if q.current > 0 then q.(current := q.current - 1) else q
  }

  /** What the learner can click while a quiz is on screen: an option, Next, or Previous. */
  datatype QuizEvent = Choose(option: nat) | ClickNext | ClickPrevious

  /**
   * One click. The results screen has no buttons; Next is disabled while the current
   * question is unanswered and Previous on the first question, so those clicks do nothing.
   * `onComplete` fires exactly when the results screen appears.
   */
  function QuizStep(q: Quiz, n: nat, e: QuizEvent): (r: (Quiz, bool))
    requires n >= 1
    ensures r.1 <==> !q.showResults && r.0.showResults
    ensures q.showResults ==> r.0 == q
    ensures QuizInv(q, n) ==> QuizInv(r.0, n)
    ensures forall i :: i in q.answers ==> i in r.0.answers
    ensures !q.showResults && e.Choose? ==> r == (Answer(q, e.option), false)
    ensures !q.showResults && e.ClickNext? ==>
      r == (if q.current in q.answers then Next(q, n) else (q, false))
    ensures !q.showResults && e.ClickPrevious? ==> r == (Previous(q), false)
  {
    if q.showResults then (q, false)
    else match e
      case Choose(k) => (Answer(q, k), false)
      case ClickNext => if q.current !in q.answers then (q, false) else Next(q, n)
      case ClickPrevious => if q.current == 0 then (q, false) else (Previous(q), false)
  }

  /** The quiz after a sequence of clicks from a fresh start, with how often `onComplete` fired. */
  function RunQuiz(n: nat, events: seq<QuizEvent>): (Quiz, nat)
    requires n >= 1
  {
    if |events| == 0 then (QuizStart, 0)
    else
      var (q, fired) := RunQuiz(n, events[..|events| - 1]);
      var (q', now) := QuizStep(q, n, events[|events| - 1]);
      (q', fired + if now then 1 else 0)
  }

  /** Any run keeps the quiz invariant, and `onComplete` fires at most once: exactly when results are showing. */
  lemma {:induction false} RunQuizKeepsInv(n: nat, events: seq<QuizEvent>)
    requires n >= 1
    ensures QuizInv(RunQuiz(n, events).0, n)
    ensures RunQuiz(n, events).1 == if RunQuiz(n, events).0.showResults then 1 else 0
  {
    if |events| > 0 {
      RunQuizKeepsInv(n, events[..|events| - 1]);
    }
  }

  // ---------------------------------------------------------------------------
  // Score and the answered counter

  predicate IsCorrect(questions: seq<Question>, answers: map<nat, int>, i: nat)
    requires i < |questions|
  {
    i in answers && answers[i] == questions[i].correctAnswer
  }

  /** The indices whose answer equals the question's correct answer. */
  function CorrectSet(questions: seq<Question>, answers: map<nat, int>): set<nat> {
    set i: nat | i < |questions| && IsCorrect(questions, answers, i)
  }

  /** `questions.filter((q, i) => answers[i] === q.correctAnswer).length`. */
  function Score(questions: seq<Question>, answers: map<nat, int>): (r: nat)
    ensures r <= |questions|
  {
    if |questions| == 0 then 0
    else Score(questions[..|questions| - 1], answers)
         + if IsCorrect(questions, answers, |questions| - 1) then 1 else 0
  }

  /** The score counts exactly the correctly answered questions. */
  lemma {:induction false} ScoreCountsCorrect(questions: seq<Question>, answers: map<nat, int>)
    ensures Score(questions, answers) == |CorrectSet(questions, answers)|
  {
    if |questions| > 0 {
      var n := |questions| - 1;
      var p := questions[..n];
      ScoreCountsCorrect(p, answers);
      assert forall i: nat :: i < n ==> (IsCorrect(p, answers, i) <==> IsCorrect(questions, answers, i));
      if IsCorrect(questions, answers, n) {
        assert CorrectSet(questions, answers) == CorrectSet(p, answers) + {n};
      } else {
        assert CorrectSet(questions, answers) == CorrectSet(p, answers);
      }
    }
  }

  /** `answers.filter(a => a !== undefined).length`: the answered questions. */
  function AnsweredCount(answers: map<nat, int>): nat {
    |answers.Keys|
  }

  /** The indices of `n` questions. */
  function Below(n: nat): (r: set<nat>)
    ensures forall i: nat :: i in r <==> i < n
  {
    if n == 0 then {} else Below(n - 1) + {n - 1}
  }

  lemma {:induction false} BelowSize(n: nat)
    ensures |Below(n)| == n
  {
    if n > 0 {
      BelowSize(n - 1);
    }
  }

  lemma {:induction false} SubsetSize<T>(a: set<T>, b: set<T>)
    requires a <= b
    ensures |a| <= |b|
    decreases b
  {
    if a != {} {
      var x :| x in a;
      SubsetSize(a - {x}, b - {x});
    }
  }

  /**
   * The counters the quiz shows: the answered count never exceeds the number of questions
   * and reaches it on the results screen, and the score never exceeds the answered count.
   */
  lemma QuizCounters(q: Quiz, questions: seq<Question>)
    requires QuizInv(q, |questions|)
    ensures AnsweredCount(q.answers) <= |questions|
    ensures q.showResults ==> AnsweredCount(q.answers) == |questions|
    ensures Score(questions, q.answers) <= AnsweredCount(q.answers)
  {
    var n := |questions|;
    BelowSize(n);
    assert q.answers.Keys <= Below(n);
    SubsetSize(q.answers.Keys, Below(n));
    if q.showResults {
      assert q.answers.Keys == Below(n);
    }
    ScoreCountsCorrect(questions, q.answers);
    SubsetSize(CorrectSet(questions, q.answers), q.answers.Keys);
  }

  // ---------------------------------------------------------------------------
  // The player with its quiz

  /** The player and, while a test is open, the state of its `TestComponent`. */
  datatype Session = Session(player: Player, quiz: Option<Quiz>)

  ghost predicate SessionInv(s: Session) {
    && Exclusive(s.player)
    && (s.quiz.Some? <==> s.player.test.Some?)
    && (s.player.test.Some? ==> QuizInv(s.quiz.value, |s.player.test.value.questions|))
  }

  function Begin(course: Course): (r: Session)
    ensures SessionInv(r) && r.player == Start(course)
  {
    Session(Start(course), None)
  }

  /**
   * Opening a test as the component is written: the quiz element sits at the same place
   * whichever test is open and carries no `key`, so a test opened while another is showing
   * inherits that test's quiz state; one opened from a video starts fresh.
   */
  function SwitchTestAsWritten(s: Session, t: Test): (r: Session)
    ensures r.player == OpenTest(s.player, t)
    ensures s.player.test.None? ==> r.quiz == Some(QuizStart)
    ensures s.player.test.Some? ==> r.quiz == s.quiz
  {
    Session(OpenTest(s.player, t), if s.player.test.Some? then s.quiz else Some(QuizStart))
  }

  /**
   * From the second question of a two-question test, opening a one-question test leaves
   * the quiz pointing at a question that test does not have (the render then reads a
   * missing question), and a choice made for the first test counts as an answer to it.
   */
  lemma SwitchTestAsWrittenBreaksQuiz()
    ensures var a := Test("a", [Question("a1", 0), Question("a2", 1)]);
      var b := Test("b", [Question("b1", 0)]);
      var s := Session(Player(None, Some(a), {}, {}), Some(Quiz(1, map[0 := 0], false)));
      && SessionInv(s)
      && var r := SwitchTestAsWritten(s, b);
      && !SessionInv(r)
      && r.quiz.value.current >= |b.questions|
      && Score(b.questions, r.quiz.value.answers) == 1
  {
    var b := Test("b", [Question("b1", 0)]);
    assert IsCorrect(b.questions, map[0 := 0], 0);
    assert Score(b.questions, map[0 := 0]) == Score([], map[0 := 0]) + 1;
  }

  /** Opening a test with the quiz keyed by the test: a different test starts a fresh quiz. */
  function SwitchTest(s: Session, t: Test): (r: Session)
    requires |t.questions| >= 1
    ensures r.player == OpenTest(s.player, t)
    ensures s.player.test != Some(t) ==> r.quiz == Some(QuizStart)
    ensures SessionInv(s) ==> SessionInv(r)
  {
    Session(OpenTest(s.player, t), if s.player.test == Some(t) then s.quiz else Some(QuizStart))
  }

  datatype PlayerEvent = ChooseVideo(video: Video) | ChooseTest(test: Test) | ClickMarkComplete | QuizClick(click: QuizEvent)

  /** Tests can be opened only when they have a first question to show. */
  predicate Openable(e: PlayerEvent) {
    e.ChooseTest? ==> |e.test.questions| >= 1
  }

  /**
   * One click in the player. "Mark as Complete" acts on the playing video; a quiz click
   * that shows the results marks the open test complete through `onComplete`.
   */
  function Step(s: Session, e: PlayerEvent): (r: Session)
    requires Openable(e)
    ensures SessionInv(s) ==> SessionInv(r)
    ensures s.player.completedVideos <= r.player.completedVideos
    ensures s.player.completedTests <= r.player.completedTests
    ensures r.player.completedTests != s.player.completedTests ==>
      s.player.test.Some? && r.player.completedTests == s.player.completedTests + {s.player.test.value.id}
    ensures r.player.completedTests != s.player.completedTests ==>
      s.quiz.Some? && !s.quiz.value.showResults && r.quiz.Some? && r.quiz.value.showResults
  {
    match e
    case ChooseVideo(v) => Session(PlayVideo(s.player, v), None)
    case ChooseTest(t) => SwitchTest(s, t)
    case ClickMarkComplete =>
      if s.player.video.Some? then s.(player := MarkVideoComplete(s.player, s.player.video.value.id)) else s
    case QuizClick(c) =>
      if s.player.test.Some? && s.quiz.Some? && |s.player.test.value.questions| >= 1 then
        var (q', fired) := QuizStep(s.quiz.value, |s.player.test.value.questions|, c);
        var p := if fired then MarkTestComplete(s.player, s.player.test.value.id) else s.player;
        Session(p, Some(q'))
      else s
  }

  function Run(course: Course, events: seq<PlayerEvent>): Session
    requires forall i :: 0 <= i < |events| ==> Openable(events[i])
  {
    if |events| == 0 then Begin(course)
    else Step(Run(course, events[..|events| - 1]), events[|events| - 1])
  }

  /**
   * Any session of clicks keeps the screen exclusive, keeps the open test's quiz consistent,
   * and only ever grows the completion sets.
   */
  lemma {:induction false} RunKeepsSessionInv(course: Course, events: seq<PlayerEvent>)
    requires forall i :: 0 <= i < |events| ==> Openable(events[i])
    ensures SessionInv(Run(course, events))
    ensures forall k :: 0 <= k <= |events| ==>
      Run(course, events[..k]).player.completedVideos <= Run(course, events).player.completedVideos
  {
    if |events| > 0 {
      var prefix := events[..|events| - 1];
      RunKeepsSessionInv(course, prefix);
      assert events[..|events|] == events;
      forall k | 0 <= k <= |events|
        ensures Run(course, events[..k]).player.completedVideos <= Run(course, events).player.completedVideos
      {
        if k < |events| {
          assert events[..k] == prefix[..k];
        }
      }
    }
  }
}

=== FILE: course_search.dfy ===
/**
 * The course catalogue's search: the live filter of the courses page, the `/courses?…`
 * target that the courses page, the search bar and the home page's hero search navigate
 * to, and a reader for such targets. Percent-encoding is the opaque `enc`.
 */
module CourseSearch {
  import opened Wrappers
  import opened Text
  import opened Sequences

  datatype Course = Course(title: string, description: string, categorySlug: string)

  // ---------------------------------------------------------------------------
  // The filter

  /** An empty term matches everything; otherwise the lowercased title or description must contain the lowercased term. */
  predicate MatchesSearch(c: Course, term: string) {
    term == [] || Contains(Lower(c.title), Lower(term)) || Contains(Lower(c.description), Lower(term))
  }

  /** An empty category matches everything; otherwise the course's category slug must equal it. */
  predicate MatchesCategory(c: Course, category: string) {
    category == [] || c.categorySlug == category
  }

  predicate Kept(c: Course, term: string, category: string) {
    MatchesSearch(c, term) && MatchesCategory(c, category)
  }

  /** `filteredCourses`: the courses the page shows for the typed term and the selected category. */
  function Filter(courses: seq<Course>, term: string, category: string): (r: seq<Course>)
    ensures |r| <= |courses|
    ensures forall c :: c in r <==> c in courses && Kept(c, term, category)
    ensures forall c :: multiset(r)[c] == if Kept(c, term, category) then multiset(courses)[c] else 0
  {
    if |courses| == 0 then []
    else
      var rest := Filter(courses[1..], term, category);
      assert forall c :: c in courses <==> c == courses[0] || c in courses[1..];
      assert courses == [courses[0]] + courses[1..];
      assert multiset(courses) == multiset([courses[0]]) + multiset(courses[1..]);
      if Kept(courses[0], term, category) then [courses[0]] + rest else rest
  }

  /** The shown courses keep the catalogue's order. */
  lemma {:induction false} FilterIsSubseq(courses: seq<Course>, term: string, category: string)
    ensures IsSubseq(Filter(courses, term, category), courses)
  {
    if |courses| > 0 {
      var a := Filter(courses, term, category);
      var rest := Filter(courses[1..], term, category);
      FilterIsSubseq(courses[1..], term, category);
      if Kept(courses[0], term, category) {
        assert a[0] == courses[0] && a[1..] == rest;
      } else if |a| > 0 {
        assert a[0] in a;
        assert a[0] != courses[0];
      }
    }
  }

  /** With no term and no category every course is shown, in order. */
  lemma {:induction false} EmptyFilterKeepsAll(courses: seq<Course>)
    ensures Filter(courses, "", "") == courses
  {
    if |courses| > 0 {
      EmptyFilterKeepsAll(courses[1..]);
    }
  }

  /** Selecting a category narrows the result for the same term to an order-preserving subsequence of it. */
  lemma {:induction false} CategoryNarrows(courses: seq<Course>, term: string, category: string)
    ensures IsSubseq(Filter(courses, term, category), Filter(courses, term, ""))
  {
    if |courses| > 0 {
      var a := Filter(courses, term, category);
      var b := Filter(courses, term, "");
      var c0 := courses[0];
      CategoryNarrows(courses[1..], term, category);
      if Kept(c0, term, category) {
        assert a[0] == c0 && a[1..] == Filter(courses[1..], term, category);
        assert b[0] == c0 && b[1..] == Filter(courses[1..], term, "");
      } else if Kept(c0, term, "") {
        assert b[0] == c0 && b[1..] == Filter(courses[1..], term, "");
        if |a| > 0 {
          assert a[0] in a;
          assert a[0] != c0;
        }
      }
    }
  }

  /** The count line reads "course" for exactly one match and "courses" otherwise. */
  function ResultLabel(count: nat): (r: string)
    ensures r == "course" <==> count == 1
    ensures r == "courses" <==> count != 1
  {
    if count == 1 then "course" else "courses"
  }

  // ---------------------------------------------------------------------------
  // The navigation target

  /**
   * The parameters `updateURL` sets: `search` with the trimmed term when that is not empty,
   * then `category` when one is selected.
   */
  function QueryParams(term: string, category: string): (r: seq<(string, string)>)
    ensures |r| <= 2
    ensures forall p :: p in r ==>
      || (p.0 == "search" && p.1 == Trim(term) && Trim(term) != [])
      || (p.0 == "category" && p.1 == category && category != [])
    ensures Trim(term) != [] <==> ("search", Trim(term)) in r
    ensures category != [] <==> ("category", category) in r
    ensures |r| == 2 ==> r[0].0 == "search" && r[1].0 == "category"
  {
    (if Trim(term) != [] then [("search", Trim(term))] else [])
    + (if category != [] then [("category", category)] else [])
  }

  /** The parameters after encoding, as a reader of the query string recovers them. */
  function EncodedParams(params: seq<(string, string)>, enc: string -> string): (r: seq<(string, string)>)
    ensures |r| == |params|
    ensures forall i :: 0 <= i < |params| ==> r[i] == (enc(params[i].0), enc(params[i].1))
  {
    seq(|params|, i requires 0 <= i < |params| => (enc(params[i].0), enc(params[i].1)))
  }

  /** Each pair as `name=value`. */
  function Render(pairs: seq<(string, string)>): (r: seq<string>)
    ensures |r| == |pairs|
    ensures forall i :: 0 <= i < |pairs| ==> r[i] == pairs[i].0 + "=" + pairs[i].1
  {
    seq(|pairs|, i requires 0 <= i < |pairs| => pairs[i].0 + "=" + pairs[i].1)
  }

  /** `URLSearchParams.toString()`: the encoded pairs joined by `&`, or nothing without parameters. */
  function QueryString(params: seq<(string, string)>, enc: string -> string): (r: string)
    ensures r == [] <==> |params| == 0
  {
    if |params| == 0 then [] else
      var rendered := Render(EncodedParams(params, enc));
      assert |rendered[0]| >= 1;
      assert |Join(rendered, '&')| >= |rendered[0]|;
      Join(rendered, '&')
  }

  /** `/courses`, followed by `?` and the query string when there is one. */
  function CoursesTarget(term: string, category: string, enc: string -> string): (r: string)
    ensures "/courses" <= r
    ensures r == "/courses" <==> Trim(term) == [] && category == []
  {
    var qs := QueryString(QueryParams(term, category), enc);
    if qs == [] then "/courses" else "/courses?" + qs
  }

  /** The home page's hero search: the trimmed term through `encodeURIComponent`, or bare `/courses`. */
  function HeroTarget(term: string, encUri: string -> string): (r: string)
    ensures "/courses" <= r
    ensures r == "/courses" <==> AllSpace(term)
    ensures !AllSpace(term) ==> r == "/courses?search=" + encUri(Trim(term))
  {
    if Trim(term) != [] then "/courses?search=" + encUri(Trim(term)) else "/courses"
  }

  // ---------------------------------------------------------------------------
  // Reading a target back

  /** One `name=value` piece, split at its first `=`. */
  function SplitPair(piece: string): (r: (string, string))
    ensures '=' !in r.0
    ensures '=' !in piece ==> r == (piece, "")
  {
    var name := Before(piece, '=');
    if |name| < |piece| then (name, piece[|name| + 1..])
    else
      assert |name| == |piece| && name == piece[..|piece|];
      assert piece[..|piece|] == piece;
      (name, "")
  }

  /** The (still encoded) parameters of a `/courses` target, or `None` for any other path. */
  function ParseTarget(url: string): Option<seq<(string, string)>> {
    if url == "/courses" then Some([])
    else if "/courses?" <= url then
      var pieces := Split(url[|"/courses?"|..], '&');
      Some(seq(|pieces|, i requires 0 <= i < |pieces| => SplitPair(pieces[i])))
    else None
  }

  /** An encoder in the form-urlencoded family: it escapes the query syntax characters `&` and `=`. */
  ghost predicate EscapesQuerySyntax(enc: string -> string) {
    forall s :: '&' !in enc(s) && '=' !in enc(s)
  }

  lemma SplitPairOf(a: string, b: string)
    requires '=' !in a
    ensures SplitPair(a + "=" + b) == (a, b)
  {
    assert a + "=" + b == a + ("=" + b);
    BeforeSeparator(a, '=', "=" + b);
    assert Before("=" + b, '=') == [];
    assert Before(a + "=" + b, '=') == a;
    assert (a + "=" + b)[|a| + 1..] == b;
  }

  /** A query string of rendered pairs reads back as those pairs, when names hold no `=` and nothing holds `&`. */
  lemma ParseRendered(pairs: seq<(string, string)>)
    requires |pairs| >= 1
    requires forall i :: 0 <= i < |pairs| ==> '&' !in pairs[i].0 && '&' !in pairs[i].1 && '=' !in pairs[i].0
    ensures ParseTarget("/courses?" + Join(Render(pairs), '&')) == Some(pairs)
  {
    var rendered := Render(pairs);
    var url := "/courses?" + Join(rendered, '&');
    assert |url| > |"/courses"|;
    assert url[|"/courses?"|..] == Join(rendered, '&');
    forall i | 0 <= i < |rendered| ensures '&' !in rendered[i] {
      assert rendered[i] == pairs[i].0 + "=" + pairs[i].1;
    }
    SplitJoin(rendered, '&');
    var parsed := seq(|rendered|, i requires 0 <= i < |rendered| => SplitPair(rendered[i]));
    forall i | 0 <= i < |rendered| ensures parsed[i] == pairs[i] {
      SplitPairOf(pairs[i].0, pairs[i].1);
    }
    assert parsed == pairs;
  }

  /**
   * The target round-trips: reading back the query of `CoursesTarget` gives exactly the
   * encoded parameters of `updateURL`, so `search` (trimmed) comes first when present and
   * `category` second.
   */
  lemma TargetRoundTrip(term: string, category: string, enc: string -> string)
    requires EscapesQuerySyntax(enc)
    ensures ParseTarget(CoursesTarget(term, category, enc)) == Some(EncodedParams(QueryParams(term, category), enc))
  {
    var params := QueryParams(term, category);
    if |params| > 0 {
      var pairs := EncodedParams(params, enc);
      forall i | 0 <= i < |pairs| ensures '&' !in pairs[i].0 && '&' !in pairs[i].1 && '=' !in pairs[i].0 {
        assert '&' !in enc(params[i].0) && '=' !in enc(params[i].0) && '&' !in enc(params[i].1);
      }
      ParseRendered(pairs);
    }
  }

  /** A target with a single `search` parameter reads back as that parameter. */
  lemma ParseSearchOnly(v: string)
    requires '&' !in v
    ensures ParseTarget("/courses?search=" + v) == Some([("search", v)])
  {
    var pairs := [("search", v)];
    assert "search" + "=" + v == "search=" + v;
    assert Render(pairs) == ["search=" + v];
    assert Join(["search=" + v], '&') == "search=" + v;
    assert "/courses?search=" + v == "/courses?" + ("search=" + v);
    ParseRendered(pairs);
  }

  /** The hero search's target carries at most one parameter, `search`, holding the encoded trimmed term. */
  lemma HeroTargetParams(term: string, encUri: string -> string)
    requires EscapesQuerySyntax(encUri)
    ensures ParseTarget(HeroTarget(term, encUri))
         == Some(if AllSpace(term) then [] else [("search", encUri(Trim(term)))])
  {
    if !AllSpace(term) {
      ParseSearchOnly(encUri(Trim(term)));
    }
  }

  /** Terms that differ only by surrounding whitespace lead to the same places. */
  lemma TargetsIgnorePadding(a: string, term: string, b: string, category: string,
                             enc: string -> string, encUri: string -> string)
    requires AllSpace(a) && AllSpace(b)
    ensures HeroTarget(a + term + b, encUri) == HeroTarget(term, encUri)
    ensures CoursesTarget(a + term + b, category, enc) == CoursesTarget(term, category, enc)
  {
    TrimIgnoresPadding(a, term, b);
    assert AllSpace(a + term + b) <==> AllSpace(term);
  }

  /**
   * A whitespace-only term is dropped from the target, as if nothing were typed, while the
   * filter still uses it untrimmed: a course without that whitespace in its title or
   * description is hidden.
   */
  lemma WhitespaceTermFiltersButIsNotNavigated(enc: string -> string)
    ensures CoursesTarget(" ", "", enc) == CoursesTarget("", "", enc) == "/courses"
    ensures Filter([Course("Go", "Basics", "web")], "", "") == [Course("Go", "Basics", "web")]
    ensures Filter([Course("Go", "Basics", "web")], " ", "") == []
  {
    assert AllSpace(" ");
    var c := Course("Go", "Basics", "web");
    assert Lower(" ") == " ";
    assert Lower(c.title) == "go";
    assert Lower(c.description) == "basics";
    assert !Contains("go", " ") by {
      forall i | 0 <= i <= 2 ensures !(" " <= "go"[i..]) {
        if i < 2 { assert "go"[i..][0] != ' '; }
      }
    }
    assert !Contains("basics", " ") by {
      forall i | 0 <= i <= 6 ensures !(" " <= "basics"[i..]) {
        if i < 6 { assert "basics"[i..][0] != ' '; }
      }
    }
    assert !Kept(c, " ", "");
  }

  // ---------------------------------------------------------------------------
  // The search bar

  datatype SearchBar = SearchBar(term: string, category: string)

  /** `handleCategoryChange`: the category selection changes, the typed term does not. */
  function ChangeCategory(s: SearchBar, category: string): (r: SearchBar)
    ensures r.term == s.term && r.category == category
  {
    s.(category := category)
  }

  /** Where the bar navigates on submit, and once the debounce settles. */
  function BarTarget(s: SearchBar, enc: string -> string): string {
    CoursesTarget(s.term, s.category, enc)
  }

  /** Changing only the category keeps the bar's search parameter and replaces its category parameter. */
  lemma ChangeCategoryKeepsSearch(s: SearchBar, category: string, enc: string -> string)
    requires EscapesQuerySyntax(enc)
    ensures var r := ChangeCategory(s, category);
      var before := ParseTarget(BarTarget(s, enc)).value;
      var after := ParseTarget(BarTarget(r, enc)).value;
      && (Trim(s.term) != [] ==> |before| >= 1 && |after| >= 1 && before[0] == after[0] == (enc("search"), enc(Trim(s.term))))
      && (category != [] ==> after[|after| - 1] == (enc("category"), enc(category)))
      && (category == [] ==> |after| == if Trim(s.term) != [] then 1 else 0)
  {
    TargetRoundTrip(s.term, s.category, enc);
    TargetRoundTrip(s.term, category, enc);
  }
}

=== FILE: forgot_password.dfy ===
/**
 * `POST /api/auth/forgot-password` as one transition of the limiter store and the
 * token table. The random token is the input `freshToken`; whether the reset email
 * went out is the input `mailDelivered`, which the route deliberately ignores.
 */
module ForgotPasswordRoute {
  import opened Wrappers
  import opened Text
  import opened Http
  import opened RateLimit
  import opened Validations
  import opened Accounts

  /** 3 requests per 15 minutes. */
  const ForgotLimits := Options(15 * 60 * 1000, 3)

  const GenericMessage := "If the email exists, a password reset link has been sent"
  const DevelopmentMessage := "Password reset link generated"

  /** The answer that does not reveal whether the email belongs to an account. */
  const GenericResponse := JsonResponse(200, MessageBody(GenericMessage))

  datatype Outcome = Outcome(response: Response, limits: Store, db: Db)

  /** `${process.env.NEXTAUTH_URL || 'http://localhost:3000'}/reset-password?token=${token}`. */
  function ResetUrl(env: Env, token: string): (r: string)
    ensures env.nextAuthUrl.Some? && env.nextAuthUrl.value != "" ==>
      r == env.nextAuthUrl.value + "/reset-password?token=" + token
    ensures env.nextAuthUrl.None? || env.nextAuthUrl.value == "" ==>
      r == "http://localhost:3000/reset-password?token=" + token
    ensures |token| <= |r| && r[|r| - |token|..] == token
  {
    var base := if env.nextAuthUrl.Some? && env.nextAuthUrl.value != "" then env.nextAuthUrl.value
                else "http://localhost:3000";
    base + "/reset-password?token=" + token
  }

  /** The token table after a request for the user `userId`: old live tokens used up, the new one added. */
  function Issue(resets: map<string, ResetToken>, userId: string, freshToken: string, now: int): map<string, ResetToken> {
    InvalidateUnused(resets, userId)[freshToken := ResetToken(userId, now + ResetTokenLifetime, false)]
  }

  /** The user a well-formed request asks about, once it has passed the gate and the schema. */
  function Requested(env: Env, limits: Store, db: Db, req: Request, now: int, isEmail: string -> bool): Option<nat> {
    if Gate(env.mode, limits, ForgotLimits, req, now).0.Admit? && req.body.Parsed?
       && ParseForgot(req.body.json, isEmail).Ok?
    then FindByEmail(db.users, Lower(ParseForgot(req.body.json, isEmail).value))
    else None
  }

  function Post(env: Env, limits: Store, db: Db, req: Request, now: int,
                isEmail: string -> bool, freshToken: string, mailDelivered: bool): (r: Outcome)
    // the gate runs first; a rejection answers 429 before the body is read
    ensures var (d, limits') := Gate(env.mode, limits, ForgotLimits, req, now);
      && r.limits == limits'
      && (d.Reject? ==> r.response == TooManyRequests(d, ForgotLimits) && r.db == db)
    // a body that is not JSON makes `req.json()` throw; the catch-all answers 500 and nothing is written
    ensures Gate(env.mode, limits, ForgotLimits, req, now).0.Admit? && req.body.Malformed? ==>
      r.response == InternalError && r.db == db
    // a schema failure answers 400 with the first issue
    ensures (Gate(env.mode, limits, ForgotLimits, req, now).0.Admit? && req.body.Parsed?
             && ParseForgot(req.body.json, isEmail).Err?) ==>
      r.response == JsonResponse(400, ErrorBody(ParseForgot(req.body.json, isEmail).error)) && r.db == db
    // an unknown email answers the generic message and changes nothing
    ensures (Gate(env.mode, limits, ForgotLimits, req, now).0.Admit? && req.body.Parsed?
             && ParseForgot(req.body.json, isEmail).Ok?
             && Requested(env, limits, db, req, now, isEmail).None?) ==>
      r.response == GenericResponse && r.db == db
    // a known email issues a fresh token after using up the user's live ones
    ensures Requested(env, limits, db, req, now, isEmail).Some? && freshToken !in db.resets ==>
      var u := db.users[Requested(env, limits, db, req, now, isEmail).value];
      && r.db == Db(db.users, Issue(db.resets, u.id, freshToken, now))
      && r.response == (if env.mode == Development
                        then JsonResponse(200, ResetLinkBody(DevelopmentMessage, ResetUrl(env, freshToken), freshToken))
                        else GenericResponse)
    // a token collision fails the insert after the invalidation has already been written
    ensures Requested(env, limits, db, req, now, isEmail).Some? && freshToken in db.resets ==>
      var u := db.users[Requested(env, limits, db, req, now, isEmail).value];
      r.response == InternalError && r.db == Db(db.users, InvalidateUnused(db.resets, u.id))
    ensures r.db.users == db.users
  {
    var (d, limits') := Gate(env.mode, limits, ForgotLimits, req, now);
    if d.Reject? then Outcome(TooManyRequests(d, ForgotLimits), limits', db)
    else if req.body.Malformed? then Outcome(InternalError, limits', db)
    else match ParseForgot(req.body.json, isEmail)
      case Err(message) => Outcome(JsonResponse(400, ErrorBody(message)), limits', db)
      case Ok(email) =>
        match FindByEmail(db.users, Lower(email))
        case None => Outcome(GenericResponse, limits', db)
        case Some(i) =>
          var userId := db.users[i].id;
          var invalidated := InvalidateUnused(db.resets, userId);
          if freshToken in invalidated then
            Outcome(InternalError, limits', Db(db.users, invalidated))
          else
            var resets' := invalidated[freshToken := ResetToken(userId, now + ResetTokenLifetime, false)];
            // the email is sent here; a failure is logged and the request still succeeds
            var response := if env.mode == Development
                            then JsonResponse(200, ResetLinkBody(DevelopmentMessage, ResetUrl(env, freshToken), freshToken))
                            else GenericResponse;
            Outcome(response, limits', Db(db.users, resets'))
  }

  /**
   * Issuing for a user marks every previously live token of that user used, leaves other users'
   * tokens alone, and adds one live token for the user expiring an hour from now: afterwards
   * that token is the user's only live one.
   */
  lemma IssueLeavesOneLiveToken(resets: map<string, ResetToken>, userId: string, freshToken: string, now: int)
    requires freshToken !in resets
    ensures var r := Issue(resets, userId, freshToken, now);
      && r.Keys == resets.Keys + {freshToken}
      && r[freshToken] == ResetToken(userId, now + ResetTokenLifetime, false)
      && (forall t :: t in resets && resets[t].userId == userId ==> r[t] == resets[t].(used := true))
      && (forall t :: t in resets && resets[t].userId != userId ==> r[t] == resets[t])
      && UnusedTokens(r, userId) == {freshToken}
  {
    var r := Issue(resets, userId, freshToken, now);
    assert freshToken in UnusedTokens(r, userId);
  }

  /** Every outcome of the route keeps each user at no more than one live token. */
  lemma PostKeepsAtMostOneUnused(env: Env, limits: Store, db: Db, req: Request, now: int,
                                 isEmail: string -> bool, freshToken: string, mailDelivered: bool)
    requires AtMostOneUnused(db.resets)
    ensures AtMostOneUnused(Post(env, limits, db, req, now, isEmail, freshToken, mailDelivered).db.resets)
  {
    var q := Requested(env, limits, db, req, now, isEmail);
    if q.Some? {
      var userId := db.users[q.value].id;
      var inv := InvalidateUnused(db.resets, userId);
      assert AtMostOneUnused(inv) by {
        forall t1, t2 | t1 in inv && t2 in inv && !inv[t1].used && !inv[t2].used && inv[t1].userId == inv[t2].userId
          ensures t1 == t2
        {
          assert !db.resets[t1].used && !db.resets[t2].used;
        }
      }
      if freshToken !in db.resets {
        var r := Issue(db.resets, userId, freshToken, now);
        IssueLeavesOneLiveToken(db.resets, userId, freshToken, now);
        forall t1, t2 | t1 in r && t2 in r && !r[t1].used && !r[t2].used && r[t1].userId == r[t2].userId
          ensures t1 == t2
        {
          if r[t1].userId == userId {
            assert t1 in UnusedTokens(r, userId) && t2 in UnusedTokens(r, userId);
          } else {
            assert t1 != freshToken && t2 != freshToken;
            assert inv[t1] == r[t1] && inv[t2] == r[t2];
          }
        }
      }
    }
  }

  /** Outside development the answer for a registered email is the answer for an unknown one. */
  lemma ResponseHidesAccounts(env: Env, limits: Store, db: Db, req: Request, now: int,
                              isEmail: string -> bool, freshToken: string, mailDelivered: bool)
    requires env.mode != Development
    requires Gate(env.mode, limits, ForgotLimits, req, now).0.Admit? && req.body.Parsed?
    requires ParseForgot(req.body.json, isEmail).Ok?
    requires freshToken !in db.resets
    ensures Post(env, limits, db, req, now, isEmail, freshToken, mailDelivered).response == GenericResponse
  {
  }

  /**
   * A failed email changes neither the answer nor the stored token. `Post` never reads
   * `mailDelivered`, so this holds by construction; it records that the route catches the
   * sending error and carries on.
   */
  lemma MailFailureIgnored(env: Env, limits: Store, db: Db, req: Request, now: int,
                           isEmail: string -> bool, freshToken: string)
    ensures Post(env, limits, db, req, now, isEmail, freshToken, false)
         == Post(env, limits, db, req, now, isEmail, freshToken, true)
  {
  }
}

=== FILE: http.dfy ===
/**
 * The request and response shapes the route handlers see, with JSON parsing,
 * `NextResponse` and the framework's plumbing reduced to plain data.
 */
module Http {
  import opened Wrappers

  /** A parsed JSON value, as far as the schemas look into it. */
  datatype Json =
    | JString(s: string)
    | JObject(fields: map<string, Json>)
    | JOther(typeName: string)   // number, boolean, array or null, named as zod names it

  /** The result of `req.json()`: it throws on a body that is not JSON. */
  datatype RequestBody = Malformed | Parsed(json: Json)

  /** An inbound request: the `x-forwarded-for` header (null when absent), `request.url` and the body. */
  datatype Request = Request(forwardedFor: Option<string>, url: string, body: RequestBody)

  /** The JSON bodies the routes send back. */
  datatype Body =
    | ErrorBody(error: string)
    | RateLimitedBody(error: string, retryAfter: int)
    | MessageBody(message: string)
    | ResetLinkBody(message: string, resetUrl: string, token: string)
    | UserBody(id: string, name: string, email: string)

  datatype Response = Response(status: int, body: Body, headers: seq<(string, string)>)

  /** `NextResponse.json(body, { status })` without extra headers. */
  function JsonResponse(status: int, body: Body): Response {
    Response(status, body, [])
  }

  /** What every route's catch-all branch answers for an exception other than a schema error. */
  const InternalError := JsonResponse(500, ErrorBody("Internal server error"))

  /** `process.env.NODE_ENV`. */
  datatype Mode = Development | Production | Test

  /** The process environment the routes read. */
  datatype Env = Env(mode: Mode, nextAuthUrl: Option<string>)

  /** The value of the first header called `name`. */
  function Header(headers: seq<(string, string)>, name: string): (r: Option<string>)
    ensures r.Some? <==> exists i :: 0 <= i < |headers| && headers[i].0 == name
    ensures r.Some? ==> exists i :: 0 <= i < |headers| && headers[i] == (name, r.value)
  {
    if |headers| == 0 then None
    else if headers[0].0 == name then Some(headers[0].1)
    else
      var r := Header(headers[1..], name);
      assert forall i :: 0 <= i < |headers| - 1 ==> headers[1..][i] == headers[i + 1];
      r
  }
}

=== FILE: progress.dfy ===
/**
 * The learner's progress pages: the dashboard (counters, the recent test results with
 * their colour band, the average cell) and "My Learning" (enrolment counters, progress
 * bars, the empty state). Rows arrive already ordered as the queries order them.
 */
module Progress {
  import opened Wrappers
  import opened Sequences

  datatype Enrollment = Enrollment(userId: string, courseId: string, progress: int)
  datatype TestResult = TestResult(userId: string, testId: string, score: int, totalQuestions: int)

  /** The rows the pages read: registered user ids, enrolments, and test results newest first. */
  datatype Tables = Tables(userIds: set<string>, enrollments: seq<Enrollment>, results: seq<TestResult>)

  // ---------------------------------------------------------------------------
  // Counting and selecting

  /** `xs.filter(p).length`. */
  function Count<T>(xs: seq<T>, p: T -> bool): (r: nat)
    ensures r <= |xs|
    ensures r == |xs| <==> forall i :: 0 <= i < |xs| ==> p(xs[i])
    ensures r == 0 <==> forall i :: 0 <= i < |xs| ==> !p(xs[i])
  {
    if |xs| == 0 then 0
    else
      assert forall i :: 1 <= i < |xs| ==> xs[i] == xs[1..][i - 1];
      (if p(xs[0]) then 1 else 0) + Count(xs[1..], p)
  }

  /** `xs.filter(p)`. */
  function Select<T(==,!new)>(xs: seq<T>, p: T -> bool): (r: seq<T>)
    ensures |r| == Count(xs, p)
    ensures forall x :: x in r <==> x in xs && p(x)
    ensures IsSubseq(r, xs)
  {
    if |xs| == 0 then []
    else
      assert forall x :: x in xs <==> x == xs[0] || x in xs[1..];
      var rest := Select(xs[1..], p);
      if p(xs[0]) then
        assert ([xs[0]] + rest)[1..] == rest;
        [xs[0]] + rest
      else
        assert |rest| > 0 ==> rest[0] in rest && rest[0] != xs[0];
        rest
  }

  /** Counting two disjoint conditions separately adds up to counting either of them. */
  lemma {:induction false} CountDisjoint<T>(xs: seq<T>, p: T -> bool, q: T -> bool, either: T -> bool)
    requires forall x :: either(x) == (p(x) || q(x))
    requires forall x :: !(p(x) && q(x))
    ensures Count(xs, p) + Count(xs, q) == Count(xs, either)
  {
    if |xs| > 0 {
      CountDisjoint(xs[1..], p, q, either);
    }
  }

  /** The user's enrolments, as `where: { userId }` selects them. */
  function EnrollmentsOf(t: Tables, userId: string): (r: seq<Enrollment>)
    ensures forall e :: e in r <==> e in t.enrollments && e.userId == userId
  {
    Select(t.enrollments, (e: Enrollment) => e.userId == userId)
  }

  /** The user's test results, newest first. */
  function ResultsOf(t: Tables, userId: string): (r: seq<TestResult>)
    ensures forall x :: x in r <==> x in t.results && x.userId == userId
  {
    Select(t.results, (x: TestResult) => x.userId == userId)
  }

  predicate IsComplete(e: Enrollment) { e.progress == 100 }
  predicate IsUnderway(e: Enrollment) { e.progress < 100 }

  // ---------------------------------------------------------------------------
  // The dashboard

  /** The colour of a test percentage. */
  datatype Band = Green | Yellow | Red

  /** At least 80 is green, at least 60 yellow, anything lower red. */
  function BandOf(percentage: int): (r: Band)
    ensures r == Green <==> percentage >= 80
    ensures r == Yellow <==> 60 <= percentage < 80
    ensures r == Red <==> percentage < 60
  {
    if percentage >= 80 then Green else if percentage >= 60 then Yellow else Red
  }

  function BandRank(b: Band): nat {
    match b
    case Red => 0
    case Yellow => 1
    case Green => 2
  }

  /** A higher percentage never gets a worse colour. */
  lemma BandMonotone(p1: int, p2: int)
    requires p1 <= p2
    ensures BandRank(BandOf(p1)) <= BandRank(BandOf(p2))
  {
  }

  /** The average cell: a plain 0 without results, otherwise the mean over the fetched ones. */
  datatype Average = ZeroPercent | MeanOf(results: seq<TestResult>)

  datatype DashboardView = DashboardView(enrolled: nat, completed: nat, testsTaken: nat,
                                         recent: seq<TestResult>, average: Average)

  /** At most five test results are fetched: the newest ones. */
  const RecentResults := 5

  function Dashboard(session: Option<string>, t: Tables): (r: Option<DashboardView>)
    ensures r.None? <==> session.None? || session.value !in t.userIds
    ensures r.Some? ==>
      var mine := ResultsOf(t, session.value);
      && r.value.recent == mine[..if |mine| < RecentResults then |mine| else RecentResults]
      && r.value.testsTaken == |r.value.recent| <= RecentResults
      && (r.value.average == ZeroPercent <==> mine == [])
      && (r.value.average != ZeroPercent ==> r.value.average == MeanOf(r.value.recent))
  {
    if session.None? || session.value !in t.userIds then None
    else
      var id := session.value;
      var enrolled := EnrollmentsOf(t, id);
      var mine := ResultsOf(t, id);
      var recent := mine[..if |mine| < RecentResults then |mine| else RecentResults];
      Some(DashboardView(|enrolled|, Count(enrolled, IsComplete), |recent|, recent,
                         if |recent| > 0 then MeanOf(recent) else ZeroPercent))
  }

  /** The redirect to the sign-in page: no session, or a session whose user no longer exists. */
  function DashboardTarget(session: Option<string>, t: Tables): (r: Option<string>)
    ensures r == Some("/login") <==> Dashboard(session, t).None?
    ensures r.None? <==> Dashboard(session, t).Some?
  {
    if Dashboard(session, t).None? then Some("/login") else None
  }

  /**
   * The counters: "Courses Enrolled" counts the user's enrolments, "Completed" the ones at
   * 100 and never exceeds it; "Tests Taken" counts the fetched results only.
   */
  lemma DashboardCounters(userId: string, t: Tables)
    requires userId in t.userIds
    ensures var v := Dashboard(Some(userId), t).value;
      var mine := EnrollmentsOf(t, userId);
      && v.enrolled == |mine|
      && v.completed == Count(mine, IsComplete) <= v.enrolled
      && (v.completed == v.enrolled <==> forall i :: 0 <= i < |mine| ==> mine[i].progress == 100)
      && var taken := |ResultsOf(t, userId)|;
         v.testsTaken == if taken < RecentResults then taken else RecentResults
  {
  }

  // ---------------------------------------------------------------------------
  // My Learning

  /** A course card, with the progress bar's value when one is shown. */
  datatype Card = Card(courseId: string, bar: Option<int>)

  datatype MyCoursesView = MyCoursesView(enrolled: nat, inProgress: nat, completed: nat,
                                         cards: seq<Card>, emptyState: bool)

  /** A card shows its progress bar only once some progress is made. */
  function CardOf(e: Enrollment): (r: Card)
    ensures r.courseId == e.courseId
    ensures r.bar.Some? <==> e.progress > 0
    ensures r.bar.Some? ==> r.bar.value == e.progress
  {
    Card(e.courseId, if e.progress > 0 then Some(e.progress) else None)
  }

  function MyCourses(session: Option<string>, t: Tables): (r: Option<MyCoursesView>)
    ensures r.None? <==> session.None?
    ensures r.Some? ==>
      var mine := EnrollmentsOf(t, session.value);
      && r.value.enrolled == |mine|
      && |r.value.cards| == |mine|
      && (forall i :: 0 <= i < |mine| ==> r.value.cards[i] == CardOf(mine[i]))
      && (r.value.emptyState <==> mine == [])
      && r.value.inProgress == Count(mine, IsUnderway)
      && r.value.completed == Count(mine, IsComplete)
  {
    if session.None? then None
    else
      var mine := EnrollmentsOf(t, session.value);
      Some(MyCoursesView(|mine|, Count(mine, IsUnderway), Count(mine, IsComplete),
                         seq(|mine|, i requires 0 <= i < |mine| => CardOf(mine[i])), |mine| == 0))
  }

  predicate AtMostFull(e: Enrollment) { e.progress <= 100 }

  /** The enrolments under way and the completed ones are disjoint and together are the ones at or below 100. */
  lemma SplitByProgress(mine: seq<Enrollment>)
    ensures Count(mine, IsUnderway) + Count(mine, IsComplete) <= |mine|
    ensures Count(mine, IsUnderway) + Count(mine, IsComplete) == |mine|
        <==> forall i :: 0 <= i < |mine| ==> mine[i].progress <= 100
  {
    CountDisjoint(mine, IsUnderway, IsComplete, AtMostFull);
  }

  /**
   * "In Progress" and "Completed" count disjoint enrolments, so together they never exceed
   * "Enrolled"; they add up to it exactly when no progress is above 100.
   */
  lemma MyCoursesCounters(userId: string, t: Tables)
    ensures var v := MyCourses(Some(userId), t).value;
      var mine := EnrollmentsOf(t, userId);
      && v.inProgress + v.completed <= v.enrolled
      && (v.inProgress + v.completed == v.enrolled <==> forall i :: 0 <= i < |mine| ==> mine[i].progress <= 100)
  {
    SplitByProgress(EnrollmentsOf(t, userId));
  }

  /** Without a session the page sends the visitor to sign in; with one it always renders. */
  function MyCoursesTarget(session: Option<string>, t: Tables): (r: Option<string>)
    ensures r == Some("/login") <==> session.None?
    ensures r.None? <==> MyCourses(session, t).Some?
  {
    if session.None? then Some("/login") else None
  }
}

=== FILE: rate_limit.dfy ===
/**
 * The fixed-window request throttle shared by the authentication routes.
 * The module-level store is an immutable map threaded through every call;
 * the clock is an explicit `now` in epoch milliseconds.
 */
module RateLimit {
  import opened Wrappers
  import opened Text
  import opened Http

  /** One window of one client key: requests seen so far and the instant the window ends. */
  datatype Entry = Entry(count: int, resetTime: int)

  type Store = map<string, Entry>

  /** The options a call site passes to `rateLimit`: window length in milliseconds and quota. */
  datatype Options = Options(interval: int, maxRequests: int)

  /** `checkRateLimit` answers `null` (admit) or a rejection carrying the delay and the window end. */
  datatype Decision = Admit | Reject(retryAfter: int, resetTime: int)

  const TooManyRequestsMessage := "Too many requests. Please try again later."

  /** `Math.ceil(ms / 1000)` for a whole number of milliseconds. */
  function CeilSeconds(ms: int): (r: int)
    ensures (r - 1) * 1000 < ms <= r * 1000
  {
    -((-ms) / 1000)
  }

  lemma CeilSecondsMonotonic(a: int, b: int)
    requires a <= b
    ensures CeilSeconds(a) <= CeilSeconds(b)
  {
  }

  // ---------------------------------------------------------------- client key

  /** The client address: the first comma-separated piece of `x-forwarded-for`, untrimmed, or `"unknown"`. */
  function ClientIp(forwardedFor: Option<string>): (ip: string)
    ensures forwardedFor.None? || forwardedFor.value == "" ==> ip == "unknown"
    ensures forwardedFor.Some? && forwardedFor.value != "" ==>
      var v := forwardedFor.value; ip <= v && ',' !in ip && (|ip| == |v| || v[|ip|] == ',')
  {
    if forwardedFor.Some? && forwardedFor.value != "" then Split(forwardedFor.value, ',')[0] else "unknown"
  }

  /** The store key `${ip}:${request.url}`. */
  function ClientKey(forwardedFor: Option<string>, url: string): string {
    ClientIp(forwardedFor) + ":" + url
  }

  /** The address and the URL read back from a key, splitting at its first colon. */
  function SplitKey(key: string): (string, string) {
    var ip := Before(key, ':');
    (ip, if |ip| < |key| then key[|ip| + 1..] else "")
  }

  /**
   * Keys of addresses without a colon determine their address and URL, so two such clients
   * or two resources never share a window. An IPv6 address contains colons and loses this.
   */
  lemma ClientKeyDetermined(forwardedFor: Option<string>, url: string)
    requires ':' !in ClientIp(forwardedFor)
    ensures SplitKey(ClientKey(forwardedFor, url)) == (ClientIp(forwardedFor), url)
  {
    var ip := ClientIp(forwardedFor);
    BeforeSeparator(ip, ':', ":" + url);
    var key := ClientKey(forwardedFor, url);
    assert key == ip + (":" + url);
    assert (":" + url)[0] == ':';
    assert Before(":" + url, ':') == [];
    assert Before(key, ':') == ip;
    assert |ip| < |key|;
    assert key[|ip| + 1..] == url;
    assert SplitKey(key) == (ip, url);
  }

  // ---------------------------------------------------------------- check

  /** One call of `checkRateLimit` for `key` at time `now`, without the production cleanup. */
  function Check(s: Store, key: string, opts: Options, now: int): (r: (Decision, Store))
    ensures key !in s || now > s[key].resetTime ==> r == (Admit, s[key := Entry(1, now + opts.interval)])
    ensures r.0.Reject? <==> key in s && now <= s[key].resetTime && s[key].count >= opts.maxRequests
    ensures r.0.Reject? ==> r.1 == s && r.0 == Reject(CeilSeconds(s[key].resetTime - now), s[key].resetTime)
    ensures r.0.Reject? ==> r.0.retryAfter >= 0
    ensures r.0.Admit? ==> key in r.1 && r.1 == s[key := r.1[key]]
    ensures r.0.Admit? && key in s && now <= s[key].resetTime ==>
      r.1[key] == Entry(s[key].count + 1, s[key].resetTime)
  {
    if key !in s || now > s[key].resetTime then
      (Admit, s[key := Entry(1, now + opts.interval)])
    else if s[key].count >= opts.maxRequests then
      (Reject(CeilSeconds(s[key].resetTime - now), s[key].resetTime), s)
    else
      (Admit, s[key := Entry(s[key].count + 1, s[key].resetTime)])
  }

  /** Admitting a request leaves every other client's entry as it was. */
  lemma CheckIsolatesKeys(s: Store, key: string, other: string, opts: Options, now: int)
    requires other != key
    ensures var s' := Check(s, key, opts, now).1;
      (other in s' <==> other in s) && (other in s ==> s'[other] == s[other])
  {
  }

  function MaxOne(m: int): int {
    if m > 1 then m else 1
  }

  /** Every stored count is between 1 and `max(1, maxRequests)`. */
  ghost predicate CountsBounded(s: Store, maxRequests: int) {
    forall k :: k in s ==> 1 <= s[k].count <= MaxOne(maxRequests)
  }

  /**
   * Every stored count is between 1 and `max(1, quota(k))`, where `quota(k)` is the limit of
   * the route that owns key `k`: one store serves all routes, each with its own limit.
   */
  ghost predicate CountsWithin(s: Store, quota: string -> int) {
    forall k :: k in s ==> 1 <= s[k].count <= MaxOne(quota(k))
  }

  /** A check against the key's own quota keeps every key within its quota. */
  lemma CheckKeepsCountsWithin(s: Store, key: string, opts: Options, now: int, quota: string -> int)
    requires CountsWithin(s, quota) && quota(key) == opts.maxRequests
    ensures CountsWithin(Check(s, key, opts, now).1, quota)
  {
  }

  /** Cleanup only removes entries, so the per-key bound survives it. */
  lemma CleanupKeepsCountsWithin(s: Store, now: int, quota: string -> int)
    requires CountsWithin(s, quota)
    ensures CountsWithin(Cleanup(s, now), quota)
  {
  }

  /** The single-quota special case: a store that only one route's limit governs. */
  lemma CheckKeepsCountsBounded(s: Store, key: string, opts: Options, now: int)
    requires CountsBounded(s, opts.maxRequests)
    ensures CountsBounded(Check(s, key, opts, now).1, opts.maxRequests)
  {
  }

  /** Every window ends no later than one interval after `now`. */
  ghost predicate WindowsWithin(s: Store, now: int, interval: int) {
    forall k :: k in s ==> s[k].resetTime <= now + interval
  }

  /** With a clock that does not go back, every window stays within one interval of the present. */
  lemma CheckKeepsWindowsWithin(s: Store, key: string, opts: Options, now: int, later: int)
    requires WindowsWithin(s, now, opts.interval) && now <= later
    ensures WindowsWithin(Check(s, key, opts, later).1, later, opts.interval)
  {
  }

  /** A rejection asks the client to wait between 0 and `ceil(interval / 1000)` seconds. */
  lemma RetryAfterBounded(s: Store, key: string, opts: Options, now: int)
    requires WindowsWithin(s, now, opts.interval)
    ensures var d := Check(s, key, opts, now).0;
      d.Reject? ==> 0 <= d.retryAfter <= CeilSeconds(opts.interval)
  {
    if Check(s, key, opts, now).0.Reject? {
      CeilSecondsMonotonic(s[key].resetTime - now, opts.interval);
    }
  }

  // ---------------------------------------------------------------- a run of calls

  /** The decisions for successive calls with one key at the given times. */
  function Replay(s: Store, key: string, opts: Options, times: seq<int>): (r: seq<Decision>)
    ensures |r| == |times|
    decreases |times|
  {
    if |times| == 0 then []
    else
      var (d, s') := Check(s, key, opts, times[0]);
      [d] + Replay(s', key, opts, times[1..])
  }

  /** Inside one window a key that has seen `count` calls admits exactly `maxRequests - count` more. */
  lemma {:induction false} ReplayInWindow(s: Store, key: string, opts: Options, times: seq<int>)
    requires key in s
    requires forall i :: 0 <= i < |times| ==> times[i] <= s[key].resetTime
    ensures forall i :: 0 <= i < |times| ==>
      (Replay(s, key, opts, times)[i].Admit? <==> s[key].count + i < opts.maxRequests)
    decreases |times|
  {
    if |times| > 0 {
      var (d, s') := Check(s, key, opts, times[0]);
      assert s'[key].resetTime == s[key].resetTime;
      assert forall i :: 0 <= i < |times| - 1 ==> times[1..][i] == times[i + 1];
      ReplayInWindow(s', key, opts, times[1..]);
      var r := Replay(s, key, opts, times);
      assert r == [d] + Replay(s', key, opts, times[1..]);
      forall i | 1 <= i < |times|
        ensures r[i].Admit? <==> s[key].count + i < opts.maxRequests
      {
        assert r[i] == Replay(s', key, opts, times[1..])[i - 1];
      }
    }
  }

  /**
   * The quota: starting from a missing or expired entry, and staying inside the window the first
   * call opens, call number `i` (counting from 0) is admitted iff `i < max(1, maxRequests)`.
   * So calls 1..maxRequests pass and call maxRequests + 1 and every later one is rejected.
   */
  lemma FixedWindowQuota(s: Store, key: string, opts: Options, times: seq<int>)
    requires |times| >= 1
    requires key !in s || times[0] > s[key].resetTime
    requires forall i :: 1 <= i < |times| ==> times[i] <= times[0] + opts.interval
    ensures forall i :: 0 <= i < |times| ==>
      (Replay(s, key, opts, times)[i].Admit? <==> i < MaxOne(opts.maxRequests))
  {
    var s' := s[key := Entry(1, times[0] + opts.interval)];
    var rest := times[1..];
    var r := Replay(s, key, opts, times);
    var tail := Replay(s', key, opts, rest);
    assert r == [Admit] + tail by {
      assert Check(s, key, opts, times[0]) == (Admit, s');
    }
    assert forall i :: 0 <= i < |rest| ==> rest[i] == times[i + 1];
    ReplayInWindow(s', key, opts, rest);
    forall i | 1 <= i < |times|
      ensures r[i].Admit? <==> i < MaxOne(opts.maxRequests)
    {
      assert r[i] == tail[i - 1];
    }
  }

  // ---------------------------------------------------------------- cleanup

  /** `cleanupStore` and the development sweep: drop the entries whose window ended before `now`. */
  function Cleanup(s: Store, now: int): (r: Store)
    ensures forall k :: k in r <==> k in s && s[k].resetTime >= now
    ensures forall k :: k in r ==> r[k] == s[k]
  {
    map k | k in s && !(s[k].resetTime < now) :: s[k]
  }

  /**
   * Cleaning up just before a check does not change its decision or the entry it leaves for the
   * key; with a non-negative interval the cleaned-then-checked store is the checked-then-cleaned one.
   */
  lemma CleanupBeforeCheck(s: Store, key: string, opts: Options, now: int)
    ensures var (d0, s0) := Check(s, key, opts, now);
      var (d1, s1) := Check(Cleanup(s, now), key, opts, now);
      d1 == d0 && key in s0 && key in s1 && s1[key] == s0[key]
    ensures opts.interval >= 0 ==>
      Check(Cleanup(s, now), key, opts, now).1 == Cleanup(Check(s, key, opts, now).1, now)
  {
  }

  /**
   * A cleanup run at an earlier instant `t` (the sweep timer, or `cleanupStore`'s own clock read)
   * changes neither the decision of a later check nor the entry it leaves for the key.
   */
  lemma EarlierCleanupBeforeCheck(s: Store, key: string, opts: Options, t: int, now: int)
    requires t <= now
    ensures var (d0, s0) := Check(s, key, opts, now);
      var (d1, s1) := Check(Cleanup(s, t), key, opts, now);
      d1 == d0 && key in s0 && key in s1 && s1[key] == s0[key]
  {
  }

  /** `checkRateLimit` as a whole: in production it cleans up first. */
  function Limit(mode: Mode, s: Store, opts: Options, key: string, now: int): (r: (Decision, Store))
    ensures r.0 == Check(s, key, opts, now).0
    ensures r.0.Reject? ==> r.1 == (if mode == Production then Cleanup(s, now) else s)
    ensures r.0.Admit? ==> key in r.1 && r.1[key] == Check(s, key, opts, now).1[key]
    ensures mode != Production ==> r == Check(s, key, opts, now)
  {
    CleanupBeforeCheck(s, key, opts, now);
    if mode == Production then Check(Cleanup(s, now), key, opts, now) else Check(s, key, opts, now)
  }

  /** The limiter call at the top of a route: the request's client key checked against the route's options. */
  function Gate(mode: Mode, s: Store, opts: Options, req: Request, now: int): (r: (Decision, Store))
    ensures var key := ClientKey(req.forwardedFor, req.url);
      r.0.Reject? <==> key in s && now <= s[key].resetTime && s[key].count >= opts.maxRequests
    ensures var key := ClientKey(req.forwardedFor, req.url);
      var opens := key !in s || now > s[key].resetTime;
      r.0.Admit? ==>
        && key in r.1
        && r.1[key] == (if opens then Entry(1, now + opts.interval) else Entry(s[key].count + 1, s[key].resetTime))
    ensures r.0.Reject? ==> r.1 == (if mode == Production then Cleanup(s, now) else s)
  {
    Limit(mode, s, opts, ClientKey(req.forwardedFor, req.url), now)
  }

  // ---------------------------------------------------------------- the 429 response

  /** The rejection response: 429 with `Retry-After` in delay-seconds and the informational limit headers. */
  function TooManyRequests(d: Decision, opts: Options): (r: Response)
    requires d.Reject?
    ensures r.status == 429 && r.body == RateLimitedBody(TooManyRequestsMessage, d.retryAfter)
  {
    Response(429, RateLimitedBody(TooManyRequestsMessage, d.retryAfter), [
      ("Retry-After", IntToString(d.retryAfter)),
      ("X-RateLimit-Limit", IntToString(opts.maxRequests)),
      ("X-RateLimit-Remaining", "0"),
      ("X-RateLimit-Reset", IntToString(d.resetTime))
    ])
  }

  /** A client reading the rejection headers recovers the delay, the quota and the window end. */
  lemma TooManyRequestsHeaders(d: Decision, opts: Options)
    requires d.Reject?
    ensures var h := TooManyRequests(d, opts).headers;
      && Header(h, "Retry-After").Some? && ParseInt(Header(h, "Retry-After").value) == Some(d.retryAfter)
      && Header(h, "X-RateLimit-Limit").Some? && ParseInt(Header(h, "X-RateLimit-Limit").value) == Some(opts.maxRequests)
      && Header(h, "X-RateLimit-Remaining") == Some("0")
      && Header(h, "X-RateLimit-Reset").Some? && ParseInt(Header(h, "X-RateLimit-Reset").value) == Some(d.resetTime)
  {
    IntRoundTrip(d.retryAfter);
    IntRoundTrip(opts.maxRequests);
    IntRoundTrip(d.resetTime);
    var h := TooManyRequests(d, opts).headers;
    var names := ["Retry-After", "X-RateLimit-Limit", "X-RateLimit-Remaining", "X-RateLimit-Reset"];
    assert forall i, j :: 0 <= i < j < 4 ==> names[i] != names[j] by {
      assert names[1][2] != names[0][2] && names[2][2] != names[0][2] && names[3][2] != names[0][2];
      assert names[2][12] != names[1][12] && names[3][12] != names[1][12];
      assert names[3][14] != names[2][14];
    }
    assert forall i :: 0 <= i < 4 ==> h[i].0 == names[i];
    assert h[1..][1..] == h[2..] && h[2..][1..] == h[3..];
    assert Header(h[3..], names[3]) == Some(IntToString(d.resetTime));
    assert Header(h[2..], names[3]) == Header(h[3..], names[3]);
    assert Header(h[2..], names[2]) == Some("0");
  }
}

=== FILE: register.dfy ===
/**
 * `POST /api/auth/register` as one transition of the limiter store and the database.
 * bcrypt (salt included) is the opaque `hash`; the new row's id is the input `newId`.
 */
module RegisterRoute {
  import opened Wrappers
  import opened Text
  import opened Http
  import opened RateLimit
  import opened Validations
  import opened Accounts

  /** 5 requests per 15 minutes. */
  const RegisterLimits := Options(15 * 60 * 1000, 5)

  const UserExists := "User already exists"

  datatype Outcome = Outcome(response: Response, limits: Store, db: Db)

  /** The row a successful registration inserts. */
  function NewUser(input: RegisterInput, hash: string -> string, newId: string): User {
    User(newId, input.name, Lower(input.email), hash(input.password))
  }

  /** Registration succeeds when the request passes the gate and the schema, no user has the lowercased email, and the id is free. */
  predicate Succeeds(env: Env, limits: Store, db: Db, req: Request, now: int, isEmail: string -> bool, newId: string) {
    && Gate(env.mode, limits, RegisterLimits, req, now).0.Admit?
    && req.body.Parsed? && ParseRegister(req.body.json, isEmail).Ok?
    && FindByEmail(db.users, Lower(ParseRegister(req.body.json, isEmail).value.email)).None?
    && FindById(db.users, newId).None?
  }

  function Post(env: Env, limits: Store, db: Db, req: Request, now: int,
                isEmail: string -> bool, hash: string -> string, newId: string): (r: Outcome)
    // the gate runs first; a rejection answers 429 and changes no table
    ensures var (d, limits') := Gate(env.mode, limits, RegisterLimits, req, now);
      && r.limits == limits'
      && (d.Reject? ==> r.response == TooManyRequests(d, RegisterLimits) && r.db == db)
    // a body that passes the gate but fails the schema answers 400 with the first issue
    ensures (Gate(env.mode, limits, RegisterLimits, req, now).0.Admit? && req.body.Parsed?
             && ParseRegister(req.body.json, isEmail).Err?) ==>
      r.response == JsonResponse(400, ErrorBody(ParseRegister(req.body.json, isEmail).error)) && r.db == db
    // an email that is taken once lowercased answers 400 and changes nothing
    ensures (Gate(env.mode, limits, RegisterLimits, req, now).0.Admit? && req.body.Parsed?
             && ParseRegister(req.body.json, isEmail).Ok?
             && FindByEmail(db.users, Lower(ParseRegister(req.body.json, isEmail).value.email)).Some?) ==>
      r.response == JsonResponse(400, ErrorBody(UserExists)) && r.db == db
    // success appends exactly one row and answers 201 with the id, name and email only
    ensures Succeeds(env, limits, db, req, now, isEmail, newId) ==>
      var u := NewUser(ParseRegister(req.body.json, isEmail).value, hash, newId);
      && r.db == Db(db.users + [u], db.resets)
      && r.response == JsonResponse(201, UserBody(u.id, u.name, u.email))
    ensures !Succeeds(env, limits, db, req, now, isEmail, newId) ==> r.db == db && r.response.status != 201
    ensures r.db.resets == db.resets
  {
    var (d, limits') := Gate(env.mode, limits, RegisterLimits, req, now);
    if d.Reject? then Outcome(TooManyRequests(d, RegisterLimits), limits', db)
    else if req.body.Malformed? then Outcome(InternalError, limits', db)
    else match ParseRegister(req.body.json, isEmail)
      case Err(message) => Outcome(JsonResponse(400, ErrorBody(message)), limits', db)
      case Ok(input) =>
        if FindByEmail(db.users, Lower(input.email)).Some? then
          Outcome(JsonResponse(400, ErrorBody(UserExists)), limits', db)
        else if FindById(db.users, newId).Some? then
          // the insert violates the primary key and the catch-all answers 500
          Outcome(InternalError, limits', db)
        else
          var u := NewUser(input, hash, newId);
          Outcome(JsonResponse(201, UserBody(u.id, u.name, u.email)), limits', Db(db.users + [u], db.resets))
  }

  /** Registration keeps ids and lowercased emails unique, so no two users share an email in any letter case. */
  lemma PostKeepsUsersWellFormed(env: Env, limits: Store, db: Db, req: Request, now: int,
                                 isEmail: string -> bool, hash: string -> string, newId: string)
    requires UsersWellFormed(db.users)
    ensures UsersWellFormed(Post(env, limits, db, req, now, isEmail, hash, newId).db.users)
  {
    if Succeeds(env, limits, db, req, now, isEmail, newId) {
      var u := NewUser(ParseRegister(req.body.json, isEmail).value, hash, newId);
      LowerIdempotent(ParseRegister(req.body.json, isEmail).value.email);
      var users' := db.users + [u];
      assert users'[|db.users|] == u;
      assert forall i :: 0 <= i < |db.users| ==> users'[i] == db.users[i];
    }
  }
}

=== FILE: reset_password.dfy ===
/**
 * `POST /api/auth/reset-password` as one transition of the limiter store and the
 * database; the `$transaction` that writes the password and spends the token is one step.
 */
module ResetPasswordRoute {
  import opened Wrappers
  import opened Text
  import opened Http
  import opened RateLimit
  import opened Validations
  import opened Accounts

  /** 5 requests per 15 minutes. */
  const ResetLimits := Options(15 * 60 * 1000, 5)

  const InvalidToken := "Invalid or expired reset token"
  const TokenUsed := "This reset link has already been used"
  const TokenExpired := "This reset link has expired"
  const ResetDone := "Password reset successful"

  datatype Outcome = Outcome(response: Response, limits: Store, db: Db)

  /** The token checks in the order the route runs them: exists, unused, not expired (`now > expiresAt` fails). */
  function TokenProblem(resets: map<string, ResetToken>, token: string, now: int): (r: Option<string>)
    ensures r == Some(InvalidToken) <==> token !in resets
    ensures r == Some(TokenUsed) <==> token in resets && resets[token].used
    ensures r == Some(TokenExpired) <==> token in resets && !resets[token].used && now > resets[token].expiresAt
    ensures r.None? <==> token in resets && !resets[token].used && now <= resets[token].expiresAt
  {
    if token !in resets then Some(InvalidToken)
    else if resets[token].used then Some(TokenUsed)
    else if now > resets[token].expiresAt then Some(TokenExpired)
    else None
  }

  /** The parsed body of a request that passed the gate, if it passed the schema. */
  function Accepted(env: Env, limits: Store, req: Request, now: int, isEmail: string -> bool): Option<ResetInput> {
    if Gate(env.mode, limits, ResetLimits, req, now).0.Admit? && req.body.Parsed?
       && ParseReset(req.body.json, isEmail).Ok?
    then Some(ParseReset(req.body.json, isEmail).value)
    else None
  }

  /** The transaction: the owner's password becomes `hashed` and the token is spent. */
  function Apply(db: Db, token: string, i: nat, hashed: string): Db
    requires token in db.resets && i < |db.users|
  {
    Db(db.users[i := db.users[i].(password := hashed)], db.resets[token := db.resets[token].(used := true)])
  }

  function Post(env: Env, limits: Store, db: Db, req: Request, now: int,
                isEmail: string -> bool, hash: string -> string): (r: Outcome)
    // the gate runs first; a rejection answers 429 and changes nothing
    ensures var (d, limits') := Gate(env.mode, limits, ResetLimits, req, now);
      && r.limits == limits'
      && (d.Reject? ==> r.response == TooManyRequests(d, ResetLimits) && r.db == db)
    // a body that is not JSON makes `req.json()` throw; the catch-all answers 500 and nothing is written
    ensures Gate(env.mode, limits, ResetLimits, req, now).0.Admit? && req.body.Malformed? ==>
      r.response == InternalError && r.db == db
    // a schema failure answers 400 with the first issue, before any token lookup
    ensures (Gate(env.mode, limits, ResetLimits, req, now).0.Admit? && req.body.Parsed?
             && ParseReset(req.body.json, isEmail).Err?) ==>
      r.response == JsonResponse(400, ErrorBody(ParseReset(req.body.json, isEmail).error)) && r.db == db
    // a failed token check answers 400 with that check's message and changes nothing
    ensures Accepted(env, limits, req, now, isEmail).Some? ==>
      var p := TokenProblem(db.resets, Accepted(env, limits, req, now, isEmail).value.token, now);
      p.Some? ==> r.response == JsonResponse(400, ErrorBody(p.value)) && r.db == db
    // otherwise the password and the token change together, and nothing else does
    ensures Accepted(env, limits, req, now, isEmail).Some? ==>
      var input := Accepted(env, limits, req, now, isEmail).value;
      TokenProblem(db.resets, input.token, now).None? ==>
        var owner := FindById(db.users, db.resets[input.token].userId);
        && (owner.Some? ==> r.response == JsonResponse(200, MessageBody(ResetDone))
                            && r.db == Apply(db, input.token, owner.value, hash(input.password)))
        && (owner.None? ==> r.response == InternalError && r.db == db)
    ensures r.db.resets.Keys == db.resets.Keys && |r.db.users| == |db.users|
  {
    var (d, limits') := Gate(env.mode, limits, ResetLimits, req, now);
    if d.Reject? then Outcome(TooManyRequests(d, ResetLimits), limits', db)
    else if req.body.Malformed? then Outcome(InternalError, limits', db)
    else match ParseReset(req.body.json, isEmail)
      case Err(message) => Outcome(JsonResponse(400, ErrorBody(message)), limits', db)
      case Ok(input) =>
        match TokenProblem(db.resets, input.token, now)
        case Some(message) => Outcome(JsonResponse(400, ErrorBody(message)), limits', db)
        case None =>
          match FindById(db.users, db.resets[input.token].userId)
          // the user update finds no row, the transaction rolls back and the catch-all answers 500
          case None => Outcome(InternalError, limits', db)
          case Some(i) => Outcome(JsonResponse(200, MessageBody(ResetDone)), limits', Apply(db, input.token, i, hash(input.password)))
  }

  /** A token that used and expired at once reports that it was used: the used check comes first. */
  lemma UsedBeforeExpired(resets: map<string, ResetToken>, token: string, now: int)
    requires token in resets && resets[token].used && now > resets[token].expiresAt
    ensures TokenProblem(resets, token, now) == Some(TokenUsed)
  {
  }

  /** Expiry is strict: a reset at the very instant `expiresAt` is still accepted. */
  lemma ExpiryIsStrict(resets: map<string, ResetToken>, token: string)
    requires token in resets && !resets[token].used
    ensures TokenProblem(resets, token, resets[token].expiresAt).None?
    ensures TokenProblem(resets, token, resets[token].expiresAt + 1) == Some(TokenExpired)
  {
  }

  /** The request passes the gate and the schema, its token passes the checks, and the owner exists. */
  predicate Succeeds(env: Env, limits: Store, db: Db, req: Request, now: int, isEmail: string -> bool) {
    && Accepted(env, limits, req, now, isEmail).Some?
    && var token := Accepted(env, limits, req, now, isEmail).value.token;
    && TokenProblem(db.resets, token, now).None?
    && FindById(db.users, db.resets[token].userId).Some?
  }

  /** Exactly the successful resets answer 200, and they change only the owner's password and that token's `used` flag. */
  lemma SuccessChangesOnlyOwnerAndToken(env: Env, limits: Store, db: Db, req: Request, now: int,
                                        isEmail: string -> bool, hash: string -> string)
    requires Succeeds(env, limits, db, req, now, isEmail)
    ensures var r := Post(env, limits, db, req, now, isEmail, hash);
      var input := Accepted(env, limits, req, now, isEmail).value;
      var token := input.token;
      && r.response.status == 200
      && !db.resets[token].used && r.db.resets[token].used
      && (forall t :: t in db.resets && t != token ==> r.db.resets[t] == db.resets[t])
      && (forall j :: 0 <= j < |db.users| ==>
            if db.users[j].id == db.resets[token].userId && FindById(db.users, db.users[j].id) == Some(j)
            then r.db.users[j] == db.users[j].(password := hash(input.password))
            else r.db.users[j] == db.users[j])
  {
    var input := Accepted(env, limits, req, now, isEmail).value;
    var owner := FindById(db.users, db.resets[input.token].userId);
    assert Post(env, limits, db, req, now, isEmail, hash).db == Apply(db, input.token, owner.value, hash(input.password));
  }

  /** Only successful resets answer 200. */
  lemma OkOnlyOnSuccess(env: Env, limits: Store, db: Db, req: Request, now: int,
                        isEmail: string -> bool, hash: string -> string)
    ensures Post(env, limits, db, req, now, isEmail, hash).response.status == 200
        <==> Succeeds(env, limits, db, req, now, isEmail)
  {
  }

  /** Resets leave every user with at most one live token, as forgot-password does. */
  lemma PostKeepsAtMostOneUnused(env: Env, limits: Store, db: Db, req: Request, now: int,
                                 isEmail: string -> bool, hash: string -> string)
    requires AtMostOneUnused(db.resets)
    ensures AtMostOneUnused(Post(env, limits, db, req, now, isEmail, hash).db.resets)
  {
    var r := Post(env, limits, db, req, now, isEmail, hash).db.resets;
    forall t1, t2 | t1 in r && t2 in r && !r[t1].used && !r[t2].used && r[t1].userId == r[t2].userId
      ensures t1 == t2
    {
      assert r[t1] == db.resets[t1] && r[t2] == db.resets[t2];
    }
  }

  /**
   * Tokens are single-use: once a reset with a token succeeds, any later request that carries the
   * same token and passes the gate and the schema is refused as already used, and changes nothing.
   */
  lemma TokenSingleUse(env: Env, limits: Store, db: Db, req: Request, now: int,
                       isEmail: string -> bool, hash: string -> string,
                       limits2: Store, req2: Request, now2: int)
    requires Succeeds(env, limits, db, req, now, isEmail)
    requires Accepted(env, limits2, req2, now2, isEmail).Some?
    requires Accepted(env, limits2, req2, now2, isEmail).value.token == Accepted(env, limits, req, now, isEmail).value.token
    ensures var db' := Post(env, limits, db, req, now, isEmail, hash).db;
      var r2 := Post(env, limits2, db', req2, now2, isEmail, hash);
      r2.response == JsonResponse(400, ErrorBody(TokenUsed)) && r2.db == db'
  {
    SuccessChangesOnlyOwnerAndToken(env, limits, db, req, now, isEmail, hash);
  }
}

=== FILE: sequences.dfy ===
/** Order-preserving selection from a sequence, shared by the catalogue filter and the progress pages. */
module Sequences {
  /** `a` is `b` with some elements dropped, the rest in their original order. */
  predicate IsSubseq<T(==)>(a: seq<T>, b: seq<T>)
    decreases |b|
  {
    |a| == 0 || (|b| > 0 && if a[0] == b[0] then IsSubseq(a[1..], b[1..]) else IsSubseq(a, b[1..]))
  }
}

=== FILE: text.dfy ===
/**
 * String primitives of the JavaScript runtime that the application relies on:
 * `trim`, ASCII `toLowerCase`, `includes`, `split`, UTF-16 `length` and the
 * decimal `toString` of integers, each with the property that pins it down.
 */
module Text {
  import opened Wrappers

  /** The code points of ECMA-262 WhiteSpace and LineTerminator outside the block U+2000..U+200A. */
  const SpaceCodes: set<int> := {0x09, 0x0A, 0x0B, 0x0C, 0x0D, 0x20, 0xA0, 0x1680,
                                 0x2028, 0x2029, 0x202F, 0x205F, 0x3000, 0xFEFF}

  /** The characters `String.prototype.trim` removes: WhiteSpace and LineTerminator of ECMA-262. */
  predicate IsSpace(c: char) {
    c as int in SpaceCodes || 0x2000 <= c as int <= 0x200A
  }

  predicate AllSpace(s: string) {
    forall i :: 0 <= i < |s| ==> IsSpace(s[i])
  }

  /** The ASCII digits `[0-9]`, which is what `\d` matches in a regular expression without the `u` flag. */
  predicate IsDigit(c: char) {
    '0' <= c <= '9'
  }

  /** The ASCII letters `[a-zA-Z]`. */
  predicate IsAsciiLetter(c: char) {
    'a' <= c <= 'z' || 'A' <= c <= 'Z'
  }

  predicate AllDigits(s: string) {
    forall i :: 0 <= i < |s| ==> IsDigit(s[i])
  }

  // ---------------------------------------------------------------- trim

  /** The first position at or after `i` that does not hold whitespace, or `|s|` when there is none. */
  function SkipStart(s: string, i: nat): (r: nat)
    requires i <= |s|
    ensures i <= r <= |s|
    ensures forall k :: i <= k < r ==> IsSpace(s[k])
    ensures r == |s| || !IsSpace(s[r])
    decreases |s| - i
  {
    if i < |s| && IsSpace(s[i]) then SkipStart(s, i + 1) else i
  }

  /** Walking back from `j`, the first end (no lower than `lo`) whose last character is not whitespace. */
  function SkipEnd(s: string, lo: nat, j: nat): (r: nat)
    requires lo <= j <= |s|
    ensures lo <= r <= j
    ensures forall k :: r <= k < j ==> IsSpace(s[k])
    ensures r == lo || !IsSpace(s[r - 1])
    decreases j
  {
    if j > lo && IsSpace(s[j - 1]) then SkipEnd(s, lo, j - 1) else j
  }

  /** `String.prototype.trim`: leading whitespace is dropped, then trailing whitespace. */
  function Trim(s: string): (r: string)
    ensures |r| <= |s|
    ensures r == [] <==> AllSpace(s)
    ensures r == [] || (!IsSpace(r[0]) && !IsSpace(r[|r| - 1]))
  {
    var lo := SkipStart(s, 0);
    s[lo..SkipEnd(s, lo, |s|)]
  }

  lemma {:induction false} SkipStartAt(s: string, i0: nat, i: nat)
    requires i0 <= i <= |s|
    requires forall k :: i0 <= k < i ==> IsSpace(s[k])
    requires i == |s| || !IsSpace(s[i])
    ensures SkipStart(s, i0) == i
    decreases i - i0
  {
    if i0 < i {
      SkipStartAt(s, i0 + 1, i);
    }
  }

  lemma {:induction false} SkipEndAt(s: string, lo: nat, j0: nat, j: nat)
    requires lo <= j <= j0 <= |s|
    requires forall k :: j <= k < j0 ==> IsSpace(s[k])
    requires j == lo || !IsSpace(s[j - 1])
    ensures SkipEnd(s, lo, j0) == j
    decreases j0 - j
  {
    if j < j0 {
      SkipEndAt(s, lo, j0 - 1, j);
    }
  }

  /**
   * The reference definition of trim: whenever `s` splits into whitespace, an infix `s[i..j]`
   * that neither starts nor ends with whitespace (or is empty because `s` is all whitespace),
   * and whitespace again, trimming yields exactly that infix.
   */
  lemma TrimIsCore(s: string, i: nat, j: nat)
    requires i <= j <= |s|
    requires forall k :: 0 <= k < i ==> IsSpace(s[k])
    requires forall k :: j <= k < |s| ==> IsSpace(s[k])
    requires i < j ==> !IsSpace(s[i]) && !IsSpace(s[j - 1])
    ensures Trim(s) == s[i..j]
  {
    if i < j {
      SkipStartAt(s, 0, i);
      SkipEndAt(s, i, |s|, j);
    } else {
      SkipStartAt(s, 0, |s|);
    }
  }

  /** Where the trimmed text sits inside the original string. */
  lemma TrimOffset(s: string) returns (i: nat)
    ensures i + |Trim(s)| <= |s|
    ensures Trim(s) == s[i..i + |Trim(s)|]
    ensures forall k :: 0 <= k < i ==> IsSpace(s[k])
    ensures forall k :: i + |Trim(s)| <= k < |s| ==> IsSpace(s[k])
  {
    i := SkipStart(s, 0);
  }

  /** Trimming twice is trimming once. */
  lemma TrimIdempotent(s: string)
    ensures Trim(Trim(s)) == Trim(s)
  {
    var r := Trim(s);
    TrimIsCore(r, 0, |r|);
  }

  /** Strings that differ only in leading and trailing whitespace trim to the same text. */
  lemma TrimIgnoresPadding(a: string, s: string, b: string)
    requires AllSpace(a) && AllSpace(b)
    ensures Trim(a + s + b) == Trim(s)
  {
    var i := TrimOffset(s);
    var r := Trim(s);
    var u := a + s + b;
    var lo, hi := |a| + i, |a| + i + |r|;
    assert forall k :: 0 <= k < lo ==> IsSpace(u[k]) by {
      forall k | 0 <= k < lo ensures IsSpace(u[k]) {
        if k < |a| { assert u[k] == a[k]; } else { assert u[k] == s[k - |a|]; }
      }
    }
    assert forall k :: hi <= k < |u| ==> IsSpace(u[k]) by {
      forall k | hi <= k < |u| ensures IsSpace(u[k]) {
        if k < |a| + |s| { assert u[k] == s[k - |a|]; } else { assert u[k] == b[k - |a| - |s|]; }
      }
    }
    assert u[lo..hi] == r by {
      forall k | 0 <= k < |r| ensures u[lo..hi][k] == r[k] {
        assert u[lo + k] == s[i + k];
      }
    }
    TrimIsCore(u, lo, hi);
  }

  // ---------------------------------------------------------------- case and search

  function LowerChar(c: char): char {
    if 'A' <= c <= 'Z' then (c as int + 32) as char else c
  }

  /** `toLowerCase` restricted to ASCII letters. */
  function Lower(s: string): (r: string)
    ensures |r| == |s| && forall i :: 0 <= i < |s| ==> r[i] == LowerChar(s[i])
  {
    seq(|s|, i requires 0 <= i < |s| => LowerChar(s[i]))
  }

  lemma LowerIdempotent(s: string)
    ensures Lower(Lower(s)) == Lower(s)
  {
  }

  /** `String.prototype.includes`: `sub` occurs at some position of `s`. */
  predicate Contains(s: string, sub: string) {
    exists i | 0 <= i <= |s| :: sub <= s[i..]
  }

  // ---------------------------------------------------------------- split and join

  /** The text before the first `sep`, or all of `s` when it has none. */
  function Before(s: string, sep: char): (r: string)
    ensures r <= s && sep !in r
    ensures |r| == |s| || s[|r|] == sep
  {
    if |s| == 0 || s[0] == sep then [] else [s[0]] + Before(s[1..], sep)
  }

  /** `String.prototype.split` with a one-character separator. */
  function Split(s: string, sep: char): (r: seq<string>)
    ensures |r| >= 1 && r[0] == Before(s, sep)
    decreases |s|
  {
    var head := Before(s, sep);
    if |head| == |s| then [s] else [head] + Split(s[|head| + 1..], sep)
  }

  /** `Array.prototype.join` with a one-character separator. */
  function Join(parts: seq<string>, sep: char): string
    requires |parts| >= 1
  {
    if |parts| == 1 then parts[0] else parts[0] + [sep] + Join(parts[1..], sep)
  }

  lemma {:induction false} BeforeSeparator(a: string, sep: char, rest: string)
    requires sep !in a
    ensures Before(a + rest, sep) == a + Before(rest, sep)
    decreases |a|
  {
    if |a| > 0 {
      assert (a + rest)[1..] == a[1..] + rest;
      BeforeSeparator(a[1..], sep, rest);
      assert a == [a[0]] + a[1..];
    } else {
      assert a + rest == rest;
    }
  }

  /** Splitting a join gives the parts back, provided no part contains the separator. */
  lemma {:induction false} SplitJoin(parts: seq<string>, sep: char)
    requires |parts| >= 1
    requires forall i :: 0 <= i < |parts| ==> sep !in parts[i]
    ensures Split(Join(parts, sep), sep) == parts
    decreases |parts|
  {
    var s := Join(parts, sep);
    if |parts| == 1 {
      BeforeSeparator(parts[0], sep, []);
      assert parts[0] + [] == parts[0];
    } else {
      var tail := Join(parts[1..], sep);
      assert s == parts[0] + ([sep] + tail);
      BeforeSeparator(parts[0], sep, [sep] + tail);
      assert Before(s, sep) == parts[0];
      assert s[|parts[0]| + 1..] == tail;
      SplitJoin(parts[1..], sep);
    }
  }

  // ---------------------------------------------------------------- lengths and numbers

  /** `String.prototype.length`: characters outside the Basic Multilingual Plane count as two UTF-16 code units. */
  function Utf16Length(s: string): (n: nat)
    ensures |s| <= n <= 2 * |s|
  {
    if |s| == 0 then 0 else (if s[0] as int >= 0x10000 then 2 else 1) + Utf16Length(s[1..])
  }

  function DigitChar(d: nat): (c: char)
    requires d < 10
    ensures IsDigit(c)
  {
    ('0' as int + d) as char
  }

  function DigitValue(c: char): (d: nat)
    requires IsDigit(c)
    ensures d < 10
  {
    c as int - '0' as int
  }

  /** The decimal notation of a natural number, without leading zeros. */
  function NatToString(n: nat): (r: string)
    ensures |r| >= 1 && AllDigits(r)
  {
    if n < 10 then [DigitChar(n)] else NatToString(n / 10) + [DigitChar(n % 10)]
  }

  /** `Number.prototype.toString()` of an integer (its magnitude below 10^21, where JavaScript switches to exponent form). */
  function IntToString(i: int): (r: string)
    ensures |r| >= 1
  {
    if i < 0 then "-" + NatToString(-i) else NatToString(i)
  }

  function ParseNat(s: string): nat
    requires |s| >= 1 && AllDigits(s)
  {
    if |s| == 1 then DigitValue(s[0]) else 10 * ParseNat(s[..|s| - 1]) + DigitValue(s[|s| - 1])
  }

  /** Reads back an optional minus sign followed by decimal digits. */
  function ParseInt(s: string): Option<int> {
    if |s| >= 2 && s[0] == '-' && AllDigits(s[1..]) then Some(0 - ParseNat(s[1..]) as int)
    else if |s| >= 1 && AllDigits(s) then Some(ParseNat(s))
    else None
  }

  lemma {:induction false} NatRoundTrip(n: nat)
    ensures ParseNat(NatToString(n)) == n
  {
    if n >= 10 {
      var s := NatToString(n);
      assert s[..|s| - 1] == NatToString(n / 10);
      NatRoundTrip(n / 10);
    }
  }

  /** The decimal notation of every integer reads back as that integer. */
  lemma IntRoundTrip(i: int)
    ensures ParseInt(IntToString(i)) == Some(i)
  {
    if i < 0 {
      var s := IntToString(i);
      assert s[1..] == NatToString(-i);
      NatRoundTrip(-i);
    } else {
      NatRoundTrip(i);
    }
  }
}

=== FILE: validations.dfy ===
/**
 * The zod schemas of the application. A string schema runs its checks in
 * declaration order and reports every failing one; an object schema reports
 * its fields' issues in field order; the routes answer with the first issue.
 */
module Validations {
  import opened Wrappers
  import opened Text
  import opened Http

  const PasswordTooShort := "Password must be at least 8 characters long"
  const PasswordNoLetter := "Password must contain at least one letter"
  const PasswordNoDigit := "Password must contain at least one number"
  const InvalidEmail := "Invalid email format"
  const EmailRequired := "Email is required"
  const NameTooShort := "Name must be at least 2 characters"
  const NameTooLong := "Name must be less than 100 characters"
  const PasswordRequired := "Password is required"
  const TokenRequired := "Token is required"
  /** zod's message for a missing field. */
  const Required := "Required"

  predicate HasLetter(s: string) {
    exists i | 0 <= i < |s| :: IsAsciiLetter(s[i])
  }

  predicate HasDigit(s: string) {
    exists i | 0 <= i < |s| :: IsDigit(s[i])
  }

  // ---------------------------------------------------------------- string schemas

  /** `passwordSchema`: length at least 8, then `/[a-zA-Z]/`, then `/\d/`. */
  function PasswordIssues(p: string): (r: seq<string>)
    ensures r == [] <==> Utf16Length(p) >= 8 && HasLetter(p) && HasDigit(p)
    ensures r != [] ==> r[0] == (if Utf16Length(p) < 8 then PasswordTooShort
                                 else if !HasLetter(p) then PasswordNoLetter
                                 else PasswordNoDigit)
  {
    (if Utf16Length(p) < 8 then [PasswordTooShort] else [])
    + (if HasLetter(p) then [] else [PasswordNoLetter])
    + (if HasDigit(p) then [] else [PasswordNoDigit])
  }

  /** `emailSchema`: the format check (zod's regular expression, left opaque) precedes `.min(1)`. */
  function EmailIssues(e: string, isEmail: string -> bool): (r: seq<string>)
    ensures r == [] <==> isEmail(e) && e != []
    ensures r != [] ==> r[0] == (if isEmail(e) then EmailRequired else InvalidEmail)
  {
    (if isEmail(e) then [] else [InvalidEmail])
    + (if Utf16Length(e) < 1 then [EmailRequired] else [])
  }

  /** `nameSchema`: the bounds 2..100 are checked on the text as received, before `.trim()`. */
  function NameIssues(n: string): (r: seq<string>)
    ensures r == [] <==> 2 <= Utf16Length(n) <= 100
    ensures r != [] ==> r[0] == (if Utf16Length(n) < 2 then NameTooShort else NameTooLong)
  {
    (if Utf16Length(n) < 2 then [NameTooShort] else [])
    + (if Utf16Length(n) > 100 then [NameTooLong] else [])
  }

  /** The string schemas the object schemas are built from. */
  datatype Rule = PasswordRule | EmailRule | NameRule | NonEmptyRule(message: string)

  function RuleIssues(rule: Rule, v: string, isEmail: string -> bool): seq<string> {
    match rule
    case PasswordRule => PasswordIssues(v)
    case EmailRule => EmailIssues(v, isEmail)
    case NameRule => NameIssues(v)
    case NonEmptyRule(m) => if Utf16Length(v) < 1 then [m] else []
  }

  /** The value a schema hands on: only the name schema transforms it. */
  function RuleOutput(rule: Rule, v: string): string {
    if rule == NameRule then Trim(v) else v
  }

  // ---------------------------------------------------------------- object schemas

  function TypeName(j: Json): string {
    match j
    case JString(_) => "string"
    case JObject(_) => "object"
    case JOther(t) => t
  }

  function FieldIssues(fields: map<string, Json>, key: string, rule: Rule, isEmail: string -> bool): seq<string> {
    if key !in fields then [Required]
    else match fields[key]
      case JString(v) => RuleIssues(rule, v, isEmail)
      case other => ["Expected string, received " + TypeName(other)]
  }

  /** The issues of every field, in the order the schema declares the fields. */
  function ShapeIssues(fields: map<string, Json>, shape: seq<(string, Rule)>, isEmail: string -> bool): (r: seq<string>)
    ensures r == [] <==> forall i :: 0 <= i < |shape| ==> FieldIssues(fields, shape[i].0, shape[i].1, isEmail) == []
  {
    if |shape| == 0 then []
    else
      var r := FieldIssues(fields, shape[0].0, shape[0].1, isEmail) + ShapeIssues(fields, shape[1..], isEmail);
      assert forall i :: 1 <= i < |shape| ==> shape[i] == shape[1..][i - 1];
      r
  }

  /** The first issue of an object comes from its first invalid field. */
  lemma {:induction false} FirstIssueFromFirstInvalidField(fields: map<string, Json>, shape: seq<(string, Rule)>, isEmail: string -> bool, k: nat)
    requires k < |shape|
    requires forall i :: 0 <= i < k ==> FieldIssues(fields, shape[i].0, shape[i].1, isEmail) == []
    requires FieldIssues(fields, shape[k].0, shape[k].1, isEmail) != []
    ensures ShapeIssues(fields, shape, isEmail) != []
    ensures ShapeIssues(fields, shape, isEmail)[0] == FieldIssues(fields, shape[k].0, shape[k].1, isEmail)[0]
  {
    if k > 0 {
      assert forall i :: 0 <= i < |shape| - 1 ==> shape[1..][i] == shape[i + 1];
      FirstIssueFromFirstInvalidField(fields, shape[1..], isEmail, k - 1);
    }
  }

  function ObjectIssues(j: Json, shape: seq<(string, Rule)>, isEmail: string -> bool): seq<string> {
    match j
    case JObject(fields) => ShapeIssues(fields, shape, isEmail)
    case _ => ["Expected object, received " + TypeName(j)]
  }

  /** A field holds a string that passes its rule. */
  predicate FieldValid(j: Json, key: string, rule: Rule, isEmail: string -> bool)
    ensures FieldValid(j, key, rule, isEmail) <==> j.JObject? && FieldIssues(j.fields, key, rule, isEmail) == []
  {
    j.JObject? && key in j.fields && j.fields[key].JString? && RuleIssues(rule, j.fields[key].s, isEmail) == []
  }

  /** `schema.parse(body)`: the field values in declaration order, or the first issue. */
  function ParseShape(j: Json, shape: seq<(string, Rule)>, isEmail: string -> bool): (r: Result<seq<string>>)
    ensures r.Ok? <==> j.JObject? && forall i :: 0 <= i < |shape| ==> FieldValid(j, shape[i].0, shape[i].1, isEmail)
    ensures r.Ok? ==> |r.value| == |shape| && forall i :: 0 <= i < |shape| ==>
      r.value[i] == RuleOutput(shape[i].1, j.fields[shape[i].0].s)
    ensures r.Err? ==> ObjectIssues(j, shape, isEmail) != [] && r.error == ObjectIssues(j, shape, isEmail)[0]
  {
    var issues := ObjectIssues(j, shape, isEmail);
    if issues != [] then
      Err(issues[0])
    else
      assert j.JObject?;
      if |shape| == 0 then Ok([])
      else
        assert forall i :: 0 <= i < |shape| ==> FieldIssues(j.fields, shape[i].0, shape[i].1, isEmail) == [];
        Ok(seq(|shape|, i requires 0 <= i < |shape| => RuleOutput(shape[i].1, j.fields[shape[i].0].s)))
  }

  // ---------------------------------------------------------------- the four schemas

  const RegisterShape := [("name", NameRule), ("email", EmailRule), ("password", PasswordRule)]
  const LoginShape := [("email", EmailRule), ("password", NonEmptyRule(PasswordRequired))]
  const ForgotShape := [("email", EmailRule)]
  const ResetShape := [("token", NonEmptyRule(TokenRequired)), ("password", PasswordRule)]

  datatype RegisterInput = RegisterInput(name: string, email: string, password: string)
  datatype LoginInput = LoginInput(email: string, password: string)
  datatype ResetInput = ResetInput(token: string, password: string)

  /** `registerSchema.parse`. */
  function ParseRegister(j: Json, isEmail: string -> bool): (r: Result<RegisterInput>)
    ensures r.Ok? <==> FieldValid(j, "name", NameRule, isEmail) && FieldValid(j, "email", EmailRule, isEmail)
                       && FieldValid(j, "password", PasswordRule, isEmail)
    ensures r.Ok? ==> && r.value.name == Trim(j.fields["name"].s)
                      && 2 <= Utf16Length(j.fields["name"].s) <= 100
                      && r.value.email == j.fields["email"].s && isEmail(r.value.email) && r.value.email != []
                      && r.value.password == j.fields["password"].s && PasswordIssues(r.value.password) == []
    ensures r.Err? ==> ObjectIssues(j, RegisterShape, isEmail) != [] && r.error == ObjectIssues(j, RegisterShape, isEmail)[0]
  {
    var p := ParseShape(j, RegisterShape, isEmail);
    assert RegisterShape[0] == ("name", NameRule) && RegisterShape[1] == ("email", EmailRule);
    assert RegisterShape[2] == ("password", PasswordRule);
    match p
    case Ok(v) => Ok(RegisterInput(v[0], v[1], v[2]))
    case Err(e) => Err(e)
  }

  /** `loginSchema.parse`: the password only has to be non-empty. */
  function ParseLogin(j: Json, isEmail: string -> bool): (r: Result<LoginInput>)
    ensures r.Ok? <==> FieldValid(j, "email", EmailRule, isEmail)
                       && j.JObject? && "password" in j.fields && j.fields["password"].JString?
                       && j.fields["password"].s != []
    ensures r.Ok? ==> r.value == LoginInput(j.fields["email"].s, j.fields["password"].s)
    ensures r.Err? ==> ObjectIssues(j, LoginShape, isEmail) != [] && r.error == ObjectIssues(j, LoginShape, isEmail)[0]
  {
    var p := ParseShape(j, LoginShape, isEmail);
    assert LoginShape[0] == ("email", EmailRule) && LoginShape[1] == ("password", NonEmptyRule(PasswordRequired));
    match p
    case Ok(v) => Ok(LoginInput(v[0], v[1]))
    case Err(e) => Err(e)
  }

  /** `forgotPasswordSchema.parse`: the email as received, untrimmed and not yet lowercased. */
  function ParseForgot(j: Json, isEmail: string -> bool): (r: Result<string>)
    ensures r.Ok? <==> FieldValid(j, "email", EmailRule, isEmail)
    ensures r.Ok? ==> r.value == j.fields["email"].s
    ensures r.Err? ==> ObjectIssues(j, ForgotShape, isEmail) != [] && r.error == ObjectIssues(j, ForgotShape, isEmail)[0]
  {
    var p := ParseShape(j, ForgotShape, isEmail);
    assert ForgotShape[0] == ("email", EmailRule);
    match p
    case Ok(v) => Ok(v[0])
    case Err(e) => Err(e)
  }

  /** `resetPasswordSchema.parse`: a non-empty token and a password under the registration rule. */
  function ParseReset(j: Json, isEmail: string -> bool): (r: Result<ResetInput>)
    ensures r.Ok? <==> && j.JObject? && "token" in j.fields && j.fields["token"].JString? && j.fields["token"].s != []
                       && FieldValid(j, "password", PasswordRule, isEmail)
    ensures r.Ok? ==> r.value == ResetInput(j.fields["token"].s, j.fields["password"].s)
    ensures r.Ok? ==> PasswordIssues(r.value.password) == []
    ensures r.Err? ==> ObjectIssues(j, ResetShape, isEmail) != [] && r.error == ObjectIssues(j, ResetShape, isEmail)[0]
  {
    var p := ParseShape(j, ResetShape, isEmail);
    assert ResetShape[0] == ("token", NonEmptyRule(TokenRequired)) && ResetShape[1] == ("password", PasswordRule);
    match p
    case Ok(v) => Ok(ResetInput(v[0], v[1]))
    case Err(e) => Err(e)
  }

  // ---------------------------------------------------------------- properties

  /** Registration reports the name's first issue, else the email's, else the password's. */
  lemma RegisterIssueOrder(fields: map<string, Json>, isEmail: string -> bool)
    ensures var r := ParseRegister(JObject(fields), isEmail);
      var name := FieldIssues(fields, "name", NameRule, isEmail);
      var email := FieldIssues(fields, "email", EmailRule, isEmail);
      var password := FieldIssues(fields, "password", PasswordRule, isEmail);
      && (name != [] ==> r == Err(name[0]))
      && (name == [] && email != [] ==> r == Err(email[0]))
      && (name == [] && email == [] && password != [] ==> r == Err(password[0]))
  {
    var shape := RegisterShape;
    assert shape[0] == ("name", NameRule) && shape[1] == ("email", EmailRule) && shape[2] == ("password", PasswordRule);
    if FieldIssues(fields, "name", NameRule, isEmail) != [] {
      FirstIssueFromFirstInvalidField(fields, shape, isEmail, 0);
    } else if FieldIssues(fields, "email", EmailRule, isEmail) != [] {
      FirstIssueFromFirstInvalidField(fields, shape, isEmail, 1);
    } else if FieldIssues(fields, "password", PasswordRule, isEmail) != [] {
      FirstIssueFromFirstInvalidField(fields, shape, isEmail, 2);
    }
  }

  /** An empty email fails the format check first, so its first issue is not "Email is required". */
  lemma EmptyEmailFirstIssue(isEmail: string -> bool)
    requires !isEmail("")
    ensures EmailIssues("", isEmail) == [InvalidEmail, EmailRequired]
  {
  }

  /** The bounds apply before trimming: three spaces pass and become an empty name. */
  lemma NameBoundsBeforeTrim()
    ensures NameIssues("   ") == [] && RuleOutput(NameRule, "   ") == ""
  {
    assert AllSpace("   ");
  }
}

=== FILE: wrappers.dfy ===
/** Option and Result datatypes shared by every module of the model. */
module Wrappers {

  /** A value that may be absent (a JavaScript `null` or `undefined`). */
  datatype Option<+T> = None | Some(value: T)

  /** The outcome of a schema parse: the parsed value, or the first issue message. */
  datatype Result<+T> = Ok(value: T) | Err(error: string)
}
